=== FILE: README.md ===
# Layer resolution in the tiled OSM database

This project is a Dafny model of the read path of `OsmSharp.Db.Tiled`, a tiled and
versioned store for OpenStreetMap data. A database version is a chain of immutable
layers. At the bottom is a root full layer. Above it are diff (snapshot) layers, and
each one points to exactly one base. Every layer owns three things:

- an object index: key ↦ pointer, or −1 for "deleted here", or absent;
- a tile index: local tile id ↦ head pointer;
- an object store: pointer ↦ object and the local ids of its tiles.

Every read on a diff layer uses one rule per key or tile. Use the local entry when there
is one. Stop when the key is tombstoned here. Otherwise ask the base. Local and base
answers are combined by a two-cursor merge on the object key (type, then id), and the
local object wins on equal keys.

Modules:

- `Optional`: option and result types.
- `Keys`: object types, keys and the key order, embedded into integers by `Rank`.
- `Tiles`: tile coordinates and the local tile id with its round trip.
- `SortedMerge`: the local-wins merge as a function, its properties, and `MergeLoop`, the
  two-cursor loop of the source.
- `Layers`: the layer datatype and the validity of one layer as it is laid out on disk.
- `Resolution`: three-way key resolution, `GetTilesFor`, `GetDbForTile`, `GetTiles`.
- `Scans`: the full scan as written, the corrected scan, and the counterexample (see
  Findings).
- `TileReads`: the tile-request partition, the local tile read, and `Get(tiles)` checked
  against per-tile views.
- `Snapshot`: the step-by-step parts. These are the keyed read loop with its shrinking
  pending set, the tile partition loop, the tile read, the full scan, and the
  `OsmTiledDbSnapshot` class with its memoised base lookup.
- `SnapshotDbFull`: the root layer's overrides, which answer locally and never consult a
  base.
- `Paths`: the on-disk path builders of `DatabaseCommon`.

The model makes these assumptions where the code relies on code that is not shown:

- A local tile id is `y * 2^zoom + x` (the `Tile` class is not part of this model).
- Each layer's store is in ascending key order, which the key-order merges rely on.
- Every stored object has an index pointer to itself.
- Every tile of a stored object is in the tile index (`Layers.ValidLocal`).
- The content of tile `t` seen from a layer is the records, in the nearest layer
  holding `t`, that belong to `t` (`TileReads.TileView`), because `Get(tiles)` reads a
  tile only from the nearest layer whose tile index holds it.
- Where keyed reads are related to tile reads, a diff that changes or deletes an object
  is taken to hold every tile in which its base shows that object (copy-on-write per
  tile, `TileReads.RewritesCoverTiles`). `TileReads.TileQueryNeedsCopyOnWrite` shows
  that without it `Get(tiles)` can return a deleted object.
- Where tile reads are checked for completeness against keyed reads, a diff holding a
  tile is taken to have an index entry for every object its base shows in that tile
  (copy-on-write of whole tiles, `TileReads.CopiesWholeTiles`), because a tile a diff
  holds is read only from that diff's store. `TileReads.TileQueryNeedsWholeTiles` shows
  that without it `Get(tiles)` can miss an unchanged object of the tile.

The full scan merges the base's scan and the local store by key and does not filter keys
the diff has deleted; see Findings. That each store is in key order is an assumption of
the model (listed above) on which `Scans.ScanAscending`, `TileReads.TileQueryAscending`
and `SnapshotDbFull.GetSortedIndexDataSorted` rest; it is not a finding.

## Model

| member | source | states |
|---|---|---|
| Keys.RankOrder | src/OsmSharp.Db.Tiled/OsmTiled/OsmTiledDbSnapshot.cs:195-203 | comparing ranks is comparing keys (type, then id), and equal ranks mean equal keys |
| Tiles.FromToLocalId | src/OsmSharp.Db.Tiled/OsmTiled/OsmTiledDbSnapshot.cs:52 | a tile inside the zoom's grid has a valid local id, and decoding it gives the tile back |
| Tiles.ToFromLocalId | src/OsmSharp.Db.Tiled/OsmTiled/OsmTiledDbSnapshot.cs:67 | a valid local id decodes to a tile inside the grid that encodes back to the same id |
| Tiles.ToLocalIdInjective | src/OsmSharp.Db.Tiled/OsmTiled/OsmTiledDbSnapshot.cs:259 | two different tiles of one grid never share a local id |
| SortedMerge.MergeLoop | src/OsmSharp.Db.Tiled/OsmTiled/OsmTiledDbSnapshot.cs:186-231 | the two-cursor loop ends and emits exactly the local-wins merge of its inputs; strictly ascending inputs give a strictly ascending output |
| SortedMerge.MergeAscending | src/OsmSharp.Db.Tiled/OsmTiled/OsmTiledDbSnapshot.cs:192-231 | merging two strictly ascending sequences gives a strictly ascending one, so no key is emitted twice |
| SortedMerge.MergeMembers | src/OsmSharp.Db.Tiled/OsmTiled/OsmTiledDbSnapshot.cs:192-231 | the merge invents nothing, keeps every local element, and keeps every base element whose key the local side lacks |
| SortedMerge.MergeKeys | src/OsmSharp.Db.Tiled/OsmTiled/OsmTiledDbSnapshot.cs:192-231 | the merged keys are exactly the union of both inputs' keys |
| SortedMerge.MergeLocalWins | src/OsmSharp.Db.Tiled/OsmTiled/OsmTiledDbSnapshot.cs:211-218 | on equal keys the output holds the local element, so the base duplicate is dropped |
| Resolution.Resolve | src/OsmSharp.Db.Tiled/OsmTiled/OsmTiledDbSnapshot.cs:105-124 | a key resolves to the local object, to nothing when tombstoned here, or to the base's answer when absent; what it finds always has that key |
| Resolution.ResolveFirstEntry | src/OsmSharp.Db.Tiled/OsmTiled/OsmTiledDbSnapshot.cs:105-124 | the nearest layer of the chain with any entry for a key decides it: a tombstone hides all older versions, a pointer gives that layer's object |
| Resolution.ResolveAbsentEverywhere | src/OsmSharp.Db.Tiled/OsmTiled/OsmTiledDbSnapshot.cs:119-124 | a key no layer of the chain knows resolves to nothing |
| Resolution.TilesFor | src/OsmSharp.Db.Tiled/OsmTiled/OsmTiledDbSnapshot.cs:136-171 | `GetTilesFor(key)` on one key; its contract is stated by `Resolution.TilesForMatchesResolve` |
| Resolution.TilesForMatchesResolve | src/OsmSharp.Db.Tiled/OsmTiled/OsmTiledDbSnapshot.cs:136-171 | `GetTilesFor(key)` gives nothing for a tombstone, the base's tiles for an absent key, the local record's tiles for a pointer: the tiles of the object the key resolves to |
| Resolution.TilesForKeys | src/OsmSharp.Db.Tiled/OsmTiled/OsmTiledDbSnapshot.cs:128-134 | one answer per requested key, in request order, each the tiles of the object the key resolves to |
| Resolution.DbForTile | src/OsmSharp.Db.Tiled/OsmTiled/OsmTiledDbSnapshot.cs:48-56 | the layer found holds the tile, and nothing is found only when the asked layer does not hold it; `Resolution.DbForTileIsNearestOwner` states that it is the nearest owner |
| Resolution.DbForTileIsNearestOwner | src/OsmSharp.Db.Tiled/OsmTiled/OsmTiledDbSnapshot.cs:48-56 | the layer found for a tile is the nearest one in the chain whose tile index holds it, and none is found exactly when no layer holds it |
| Resolution.DbForTileIdempotent | src/OsmSharp.Db.Tiled/OsmTiled/OsmTiledDbSnapshot.cs:48-56 | asking the layer found for a tile again returns that same layer |
| Resolution.GetTiles | src/OsmSharp.Db.Tiled/OsmTiled/OsmTiledDbSnapshot.cs:59-78 | the tiles a layer reports, local ids merged with the base's unless `modifiedOnly`; its contract is stated by `Resolution.ModifiedTilesAreLocal` and `Resolution.AllTilesAreChainUnion` |
| Resolution.ModifiedTilesAreLocal | src/OsmSharp.Db.Tiled/OsmTiled/OsmTiledDbSnapshot.cs:63-69 | with `modifiedOnly`, a diff yields exactly the valid tiles of its own tile index, ascending, whatever its base is |
| Resolution.AllTilesAreChainUnion | src/OsmSharp.Db.Tiled/OsmTiled/OsmTiledDbSnapshot.cs:70-77 | without `modifiedOnly`, a layer yields exactly the valid tiles some layer of its chain holds, ascending by local id and without repeats |
| Resolution.AllTilesCoverBaseAndLocal | src/OsmSharp.Db.Tiled/OsmTiled/OsmTiledDbSnapshot.cs:70-77 | without `modifiedOnly`, every base tile and every local tile appears in the output |
| Scans.Scan | src/OsmSharp.Db.Tiled/OsmTiled/OsmTiledDbSnapshot.cs:181-232 | the full scan as written; its contract is stated by `Scans.ScanAscending`, `Scans.ScanReturnsTombstoned` and `Scans.ScanCorrectWithoutTombstones` |
| Scans.ScanAscending | src/OsmSharp.Db.Tiled/OsmTiled/OsmTiledDbSnapshot.cs:181-232 | the full scan as written is strictly ascending by key |
| Scans.ScanReturnsTombstoned | src/OsmSharp.Db.Tiled/OsmTiled/OsmTiledDbSnapshot.cs:87-99 | there is a valid two-layer chain, keeping copy-on-write per tile, whose scan returns an object whose key resolves to nothing, and which the corrected scan leaves out |
| Scans.ResolvedScan | src/OsmSharp.Db.Tiled/OsmTiled/OsmTiledDbSnapshot.cs:181-232 | the full scan with tombstoned base objects dropped; its contract is stated by `Scans.ResolvedScanMatchesResolve` |
| Scans.ResolvedScanMatchesResolve | src/OsmSharp.Db.Tiled/OsmTiled/OsmTiledDbSnapshot.cs:181-232 | the corrected scan is strictly ascending and holds an object iff its key resolves to that object |
| Scans.ScanCorrectWithoutTombstones | src/OsmSharp.Db.Tiled/OsmTiled/OsmTiledDbSnapshot.cs:181-232 | when no layer of the chain holds a tombstone, the scan as written equals the corrected scan |
| TileReads.PartitionSplitsTiles | src/OsmSharp.Db.Tiled/OsmTiled/OsmTiledDbSnapshot.cs:280-292 | each requested tile lands in exactly one part, local iff the tile index holds it, and the part sizes add up to the request |
| TileReads.LocalForTiles | src/OsmSharp.Db.Tiled/OsmTiled/OsmTiledDbSnapshot.cs:234-248 | the local tile read; its contract is stated by `TileReads.LocalForTilesMembers` and `TileReads.NoLocalTileNoRead` |
| TileReads.LocalForTilesMembers | src/OsmSharp.Db.Tiled/OsmTiled/OsmTiledDbSnapshot.cs:234-248 | the local tile read is ascending and returns exactly the stored records that belong to a requested tile |
| TileReads.NoLocalTileNoRead | src/OsmSharp.Db.Tiled/OsmTiled/OsmTiledDbSnapshot.cs:240-241 | with no requested tile in the tile index the local read returns nothing |
| TileReads.TileQuery | src/OsmSharp.Db.Tiled/OsmTiled/OsmTiledDbSnapshot.cs:251-362 | `Get(tiles)`: the local part read here, the other part asked of the base, the two merged by key; its contract is stated by `TileReads.TileQueryAscending`, `TileReads.TileQuerySound`, `TileReads.TileQueryComplete`, `TileReads.TileQueryResolves` and `TileReads.TileQueryReturnsResolved` |
| TileReads.TileQueryAscending | src/OsmSharp.Db.Tiled/OsmTiled/OsmTiledDbSnapshot.cs:251-362 | `Get(tiles)` answers in strictly ascending key order |
| TileReads.TileQuerySound | src/OsmSharp.Db.Tiled/OsmTiled/OsmTiledDbSnapshot.cs:251-362 | every object `Get(tiles)` returns is in the view of some requested tile |
| TileReads.TileQueryComplete | src/OsmSharp.Db.Tiled/OsmTiled/OsmTiledDbSnapshot.cs:251-362 | every object in the view of a requested tile has its key in the answer |
| TileReads.TileQueryResolves | src/OsmSharp.Db.Tiled/OsmTiled/OsmTiledDbSnapshot.cs:251-362 | under copy-on-write per tile, every object `Get(tiles)` returns is what its key resolves to, so no deleted or superseded version comes back |
| TileReads.TileQueryNeedsCopyOnWrite | src/OsmSharp.Db.Tiled/OsmTiled/OsmTiledDbSnapshot.cs:251-362 | a valid chain without copy-on-write, whose diff deletes node 1 without holding its tile, has `Get(tiles)` return node 1 although its key resolves to nothing |
| TileReads.ResolvedInView | src/OsmSharp.Db.Tiled/OsmTiled/OsmTiledDbSnapshot.cs:257-276 | under copy-on-write of whole tiles, the object a key resolves to lies in the view of each of its tiles, the view being read from the nearest layer holding the tile |
| TileReads.TileQueryReturnsResolved | src/OsmSharp.Db.Tiled/OsmTiled/OsmTiledDbSnapshot.cs:251-362 | under both copy-on-write rules, every object a key resolves to that lies in a requested tile is returned by `Get(tiles)` in that version: the converse of `TileReads.TileQueryResolves` |
| TileReads.TileQueryNeedsWholeTiles | src/OsmSharp.Db.Tiled/OsmTiled/OsmTiledDbSnapshot.cs:257-268 | a valid chain keeping copy-on-write of rewritten objects, whose diff rewrites node 1 in tile (0, 0) without copying node 2, has `Get(tiles)` miss node 2 although its key resolves to the root's record in that tile |
| Snapshot.OsmTiledDbSnapshot.constructor | src/OsmSharp.Db.Tiled/OsmTiled/OsmTiledDbSnapshot.cs:18-22 | a new snapshot keeps its base id and factory and has an empty cache |
| Snapshot.OsmTiledDbSnapshot.GetBaseDb | src/OsmSharp.Db.Tiled/OsmTiled/OsmTiledDbSnapshot.cs:35-39 | fails iff there is no base id; otherwise returns the factory's base, runs the factory at most once, and returns the cached base on later calls |
| Snapshot.LocalPass | src/OsmSharp.Db.Tiled/OsmTiled/OsmTiledDbSnapshot.cs:103-117 | the key loop returns the locally stored objects in request order and leaves pending exactly the requested keys the index lacks |
| Snapshot.LocalHitsMembers | src/OsmSharp.Db.Tiled/OsmTiled/OsmTiledDbSnapshot.cs:105-117 | the local hits are exactly the objects that keys with a local pointer resolve to |
| Snapshot.ResolvedNotTombstoned | src/OsmSharp.Db.Tiled/OsmTiled/OsmTiledDbSnapshot.cs:105-111 | an object a key resolves to is never tombstoned in the layer asked |
| Snapshot.KeyedAnswer | src/OsmSharp.Db.Tiled/OsmTiled/OsmTiledDbSnapshot.cs:119-124 | local hits, plus the base's answer for the pending keys when any remain, are exactly what the requested keys resolve to |
| Snapshot.GetByKeys | src/OsmSharp.Db.Tiled/OsmTiled/OsmTiledDbSnapshot.cs:81-125 | keyed `Get` returns exactly what the keys resolve to, local hits first, never a locally tombstoned object; the base is asked only for the pending keys, and not at all when none remain |
| Snapshot.PartitionTiles | src/OsmSharp.Db.Tiled/OsmTiled/OsmTiledDbSnapshot.cs:280-292 | the loop puts each tile into the local list iff the tile index holds it, and into the other list otherwise |
| Snapshot.SingleTileQuery | src/OsmSharp.Db.Tiled/OsmTiled/OsmTiledDbSnapshot.cs:257-276 | one requested tile is read wholly from the local store when the layer holds it, and wholly from the base otherwise |
| Snapshot.GetByTiles | src/OsmSharp.Db.Tiled/OsmTiled/OsmTiledDbSnapshot.cs:251-362 | `Get(tiles)` returns the tile query, ascending; the base is asked for the other tiles only, and not at all when every tile is local |
| Snapshot.GetAll | src/OsmSharp.Db.Tiled/OsmTiled/OsmTiledDbSnapshot.cs:181-232 | the corrected full scan returns, ascending, exactly the objects keyed resolution returns |
| SnapshotDbFull.Get | src/OsmSharp.Db.Tiled/Snapshots/SnapshotDbFull.cs:30-33 | the root returns only an object of the requested type and id |
| SnapshotDbFull.GetMatchesResolve | src/OsmSharp.Db.Tiled/Snapshots/SnapshotDbFull.cs:30-33 | the root's keyed read is keyed resolution on the root alone, with no base |
| SnapshotDbFull.GetTile | src/OsmSharp.Db.Tiled/Snapshots/SnapshotDbFull.cs:36-39 | the root's tile read for one type; its contract is stated by `SnapshotDbFull.GetTileMembers` |
| SnapshotDbFull.GetTileMembers | src/OsmSharp.Db.Tiled/Snapshots/SnapshotDbFull.cs:36-39 | the root's tile read returns exactly its stored objects of that type in that tile, which is the root's own view of the tile |
| SnapshotDbFull.GetChangedTiles | src/OsmSharp.Db.Tiled/Snapshots/SnapshotDbFull.cs:42-45 | a full layer reports no changed tiles |
| SnapshotDbFull.GetSortedIndexData | src/OsmSharp.Db.Tiled/Snapshots/SnapshotDbFull.cs:54-57 | the root's index data for a tile and type; its contract is stated by `SnapshotDbFull.GetSortedIndexDataSorted` and `SnapshotDbFull.GetSortedIndexDataMembers` |
| SnapshotDbFull.GetSortedIndexDataSorted | src/OsmSharp.Db.Tiled/Snapshots/SnapshotDbFull.cs:54-57 | the layer's own index data for a tile and type is strictly ascending by id |
| SnapshotDbFull.GetSortedIndexDataMembers | src/OsmSharp.Db.Tiled/Snapshots/SnapshotDbFull.cs:54-57 | the index data holds an id iff an object of that type and id is stored in the tile |
| SnapshotDbFull.GetLatestNonDiff | src/OsmSharp.Db.Tiled/Snapshots/SnapshotDbFull.cs:60-63 | a full layer is its own latest non-diff layer |
| Paths.PathToMeta | src/OsmSharp.Db.Tiled/DatabaseCommon.cs:68-71 | the meta path is the database path joined with `meta.bin` |
| Paths.PathToTile | src/OsmSharp.Db.Tiled/DatabaseCommon.cs:76-98 | the tile data path; its contract is stated by `Paths.PathToTileShape` and `Paths.CompressedOnlyAppendsZip` |
| Paths.PathToTileShape | src/OsmSharp.Db.Tiled/DatabaseCommon.cs:76-98 | a tile data path is `path/zoom/x/y` plus the type's suffix, with `.zip` only when compressed; every type other than node and way gets the relations name |
| Paths.CompressedOnlyAppendsZip | src/OsmSharp.Db.Tiled/DatabaseCommon.cs:93-97 | the compressed path is the plain path plus `.zip`, and a path ends in `.zip` iff compressed, for tile and per-object files |
| Paths.IntToStringRoundTrip | src/OsmSharp.Db.Tiled/DatabaseCommon.cs:132 | the decimal text of an id reads back as the same id |
| Paths.ObjectNameRoundTrip | src/OsmSharp.Db.Tiled/DatabaseCommon.cs:129-140 | an object file name gives back the object's type and id |
| Paths.BuildPathToLocalTileObject | src/OsmSharp.Db.Tiled/DatabaseCommon.cs:124-147 | the per-object path; its contract is stated by `Paths.ObjectPathInjective` and `Paths.CompressedOnlyAppendsZip` |
| Paths.ObjectPathInjective | src/OsmSharp.Db.Tiled/DatabaseCommon.cs:124-147 | in one tile directory with one compression flag, objects differing in type or id get different files |
| Paths.PathToIndex | src/OsmSharp.Db.Tiled/DatabaseCommon.cs:152-169 | the index path; its contract is stated by `Paths.DeletedIndexIsIndexPlusDeleted` and `Paths.IndexLocationMatchesPathToIndex` |
| Paths.PathToDeletedIndex | src/OsmSharp.Db.Tiled/DatabaseCommon.cs:277-294 | the deleted-index path; its contract is stated by `Paths.DeletedIndexIsIndexPlusDeleted` |
| Paths.DeletedIndexIsIndexPlusDeleted | src/OsmSharp.Db.Tiled/DatabaseCommon.cs:277-294 | for every type the deleted-index path is the index path plus `.deleted` |
| Paths.IndexLocation | src/OsmSharp.Db.Tiled/DatabaseCommon.cs:174-188 | the location `LoadIndex` and `SaveIndex` build; its contract is stated by `Paths.IndexLocationMatchesPathToIndex` |
| Paths.IndexLocationMatchesPathToIndex | src/OsmSharp.Db.Tiled/DatabaseCommon.cs:174-188 | for node, way and relation, the location `LoadIndex`/`SaveIndex` build is `PathToIndex` |

## Left out

- File and stream I/O, GZip, memory mapping and the `byte[]` buffers are left out. Reads
  take the layer's contents as values.
- Laziness and disposal of `IEnumerable` results are left out. Results are finite
  sequences.
- Thread safety of the `_baseDb` cache is left out. The model is sequential.
- `GetPrevious` only returns `GetBaseDb()`, so it is not modelled separately.
- The layer's meta data loading, and the root `OsmTiledDbFull` class, are not part of
  this model. The root layer answers from its own store.
- `Tile.ToLocalId`/`FromLocalId` are not part of this model. The formula
  `y * 2^zoom + x` is assumed, with unbounded integers. The `uint` wrap-around of large
  ids is not modelled.
- `MergeWhenSorted` is not part of this model. It is taken to be the same local-wins merge
  as the explicit loops.
- `HasOne` is not part of this model. It is taken as "exactly one tile".
- `LowestPointersFor` and the linked store's `GetForTiles` are not part of this model. The
  local tile read returns the stored records that touch a requested tile, in key order.
  The linked-list walk is not modelled.
- The index `GetAll` is not part of this model. It is taken to yield, in request order,
  only the requested keys present in the index, each with its pointer; a negative
  pointer is read as deleted and the key leaves the pending set
  (`OsmTiledDbSnapshot.cs:105-110`).
- Snapshot.GetByKeys: does not fix the order of the base's results, because the pending
  keys go to the base as a `HashSet`. Only membership and the local-first prefix are
  stated.
- TileReads.TileQueryComplete: states that every key of a requested tile's view appears
  in the answer, not which version. On equal keys the merge keeps the local version
  (`SortedMerge.MergeLocalWins`). A tile a diff holds is read only from that diff's
  store, so completeness against keyed reads holds only when the builder copies whole
  tiles; `TileReads.TileQueryReturnsResolved` proves it under that assumption, and the
  builder is not part of this model.
- SnapshotDbFull.Get: the `isDeleted` callback is not modelled, because `GetLocal` is not
  part of this model.
- SnapshotDbFull.GetSortedIndexData: the tile masks of the index are not modelled, only
  the ids.
- SnapshotDbFull.GetSortedIndexData: the index is taken to be the ids of that type stored
  in the tile. The separate index file that `LoadIndex` reads is not related to the store
  by this model.
- Paths.IntToString: an id is written by string interpolation
  (`DatabaseCommon.cs:132,135,138`), which follows the current culture. The model writes
  plain decimal with `-` for negative ids, as an invariant culture would.
- SnapshotDbFull.GetLatestNonDiff: only the full layer's override is among the modelled
  files. The model extends it to `Diff` layers by walking down to the root, which is
  what its last `ensures` states. Consolidated snapshot layers that are not diffs are folded into
  `Diff`, so a walk that would stop at such a layer is not modelled.
- `GetIndexesForZoom` reads the directory listing and is left out as I/O.
- `Combine` joins segments with `/`. Platform separators, rooted segments and trailing
  separators are not modelled.
- `LoadTile`, `CreateTile`, `CreateLocalTileObject`, the stream parts of
  `LoadIndex`/`SaveIndex`/`LoadDeletedIndex`/`SaveDeletedIndex`, and the GZip wrappers are
  left out as I/O.
- The even-zoom rule of the builder is kept only as part of layer validity.

## Findings

| source | as written | input that shows it | evidently intended | confidence | as-written member | corrected member |
|---|---|---|---|---|---|---|
| src/OsmSharp.Db.Tiled/OsmTiled/OsmTiledDbSnapshot.cs:181-232 | The full scan, `Get(buffer)` and likewise `Get(null)` at lines 87-99, merges the base's scan with the local store and never reads the object index. | A root stores node 1. A diff over it tombstones node 1 (index entry −1, no stored record) and holds tile (0, 0), so copy-on-write per tile holds. The diff's scan returns node 1, but a keyed read of node 1 returns nothing. | A scan leaves out objects tombstoned in a more local layer, as keyed reads do. | medium; not executed; it depends on the diff builder, which is not part of this model, storing no record for a deleted object | Scans.ScanReturnsTombstoned | Scans.ResolvedScanMatchesResolve |

=== FILE: keys.dfy ===
/**
 * Object identity: the object type (node, way, relation) and a 64-bit id, with the
 * total order every merge in the store relies on (type first, then id).
 */
module Keys {

  datatype OsmGeoType = Node | Way | Relation

  const INT64_MIN: int := -0x8000_0000_0000_0000
  const INT64_LIMIT: int := 0x8000_0000_0000_0000

  /** The source stores object ids as `long`. */
  type Int64 = i: int | INT64_MIN <= i < INT64_LIMIT

  /** An object key (`OsmGeoKey`). */
  datatype Key = Key(kind: OsmGeoType, id: Int64)

  /** A stored geo-object; only the fields the store's logic looks at are kept. */
  datatype OsmGeo = OsmGeo(kind: OsmGeoType, id: Int64, version: int, visible: bool)

  function KeyOf(g: OsmGeo): Key {
    Key(g.kind, g.id)
  }

  /** Node < Way < Relation. */
  function TypeOrder(t: OsmGeoType): nat {
    match t
    case Node => 0
    case Way => 1
    case Relation => 2
  }

  /** The key order: by type first, then by id ascending. */
  predicate Less(a: Key, b: Key) {
    TypeOrder(a.kind) < TypeOrder(b.kind) || (a.kind == b.kind && a.id < b.id)
  }

  /**
   * An integer that encodes a key so that integer order is key order. Ids are 64-bit,
   * so the type takes the bits above them.
   */
  function Rank(k: Key): (r: int)
    ensures 0 <= r < 3 * 0x1_0000_0000_0000_0000
  {
    TypeOrder(k.kind) * 0x1_0000_0000_0000_0000 + (k.id - INT64_MIN)
  }

  /** Comparing ranks is comparing keys, and equal ranks mean equal keys. */
  lemma RankOrder(a: Key, b: Key)
    ensures Less(a, b) <==> Rank(a) < Rank(b)
    ensures Rank(a) == Rank(b) <==> a == b
  {
  }
}

=== FILE: layers.dfy ===
/**
 * The layer-resolution engine. A database version is a chain of immutable layers: a
 * root full layer and diff layers that each point to exactly one base. A read on a diff
 * layer uses the local entry when there is one, stops when the key is tombstoned here,
 * and otherwise asks the base. This module holds the data model, the validity of one
 * layer as it is laid out on disk, and the specification functions of every read.
 */
module Layers {
  import opened Optional
  import opened Keys
  import opened Tiles
  import opened SortedMerge

  /** An object index value: a pointer into this layer's store, or deleted here (-1). */
  datatype IndexEntry = Ptr(pointer: nat) | Deleted

  /** A record of the object store: the object and the local ids of its tiles. */
  datatype Stored = Stored(geo: OsmGeo, tileIds: seq<nat>)

  /** A tile index entry: a local tile id and the head of that tile's list in the store. */
  datatype TileHead = TileHead(tileId: nat, pointer: nat)

  /**
   * What one layer owns: its zoom, its object index (a key absent from it means "ask
   * the base"), its tile index sorted by tile id, and its object store. A pointer is the
   * position of a record in the store.
   */
  datatype LocalData = LocalData(
    zoom: nat,
    index: map<Key, IndexEntry>,
    tileIndex: seq<TileHead>,
    store: seq<Stored>)

  /** The root full layer, or a diff/snapshot layer over exactly one base. */
  datatype Layer = Full(local: LocalData) | Diff(local: LocalData, base: Layer)

  /** One read result: an object and the tiles it belongs to. */
  datatype Entry = Entry(geo: OsmGeo, tiles: seq<Tile>)

  function TileIds(ti: seq<TileHead>): seq<nat> {
    seq(|ti|, i requires 0 <= i < |ti| => ti[i].tileId)
  }

  /** `tileIndex.HasTile`: the tile index has a non-empty entry for the tile. */
  predicate HasTile(l: LocalData, id: nat) {
    id in TileIds(l.tileIndex)
  }

  /** A tile is local to a layer when that layer's tile index holds it. */
  predicate HasTileAt(layer: Layer, t: Tile) {
    HasTile(layer.local, ToLocalId(t, layer.local.zoom))
  }

  function IdRank(id: nat): int {
    id
  }

  function StoredRank(s: Stored): int {
    Rank(KeyOf(s.geo))
  }

  function EntryRank(e: Entry): int {
    Rank(KeyOf(e.geo))
  }

  function TilesOf(zoom: nat, ids: seq<nat>): seq<Tile> {
    seq(|ids|, i requires 0 <= i < |ids| => FromLocalId(zoom, ids[i]))
  }

  function IdsOf(zoom: nat, tiles: seq<Tile>): seq<nat> {
    seq(|tiles|, i requires 0 <= i < |tiles| => ToLocalId(tiles[i], zoom))
  }

  /** Decoding valid local ids yields exactly the valid tiles whose local id is listed. */
  lemma TilesOfMembers(zoom: nat, ids: seq<nat>)
    requires forall i :: 0 <= i < |ids| ==> ValidId(ids[i], zoom)
    ensures IdsOf(zoom, TilesOf(zoom, ids)) == ids
    ensures forall t :: t in TilesOf(zoom, ids) <==> ValidAt(t, zoom) && ToLocalId(t, zoom) in ids
  {
    var ts := TilesOf(zoom, ids);
    forall i | 0 <= i < |ids|
      ensures ToLocalId(ts[i], zoom) == ids[i] && ValidAt(ts[i], zoom)
    {
      ToFromLocalId(ids[i], zoom);
    }
    forall t | ValidAt(t, zoom) && ToLocalId(t, zoom) in ids
      ensures t in ts
    {
      var i :| 0 <= i < |ids| && ids[i] == ToLocalId(t, zoom);
      FromToLocalId(t, zoom);
      assert ts[i] == t;
    }
  }

  /** Encoding valid tiles yields valid ids, and a valid tile's id is listed iff the tile is. */
  lemma IdsOfMembers(zoom: nat, tiles: seq<Tile>)
    requires forall t :: t in tiles ==> ValidAt(t, zoom)
    ensures forall i :: 0 <= i < |IdsOf(zoom, tiles)| ==> ValidId(IdsOf(zoom, tiles)[i], zoom)
    ensures forall t :: ValidAt(t, zoom) ==> (ToLocalId(t, zoom) in IdsOf(zoom, tiles) <==> t in tiles)
  {
    var ids := IdsOf(zoom, tiles);
    forall i | 0 <= i < |ids|
      ensures ValidId(ids[i], zoom)
    {
      assert tiles[i] in tiles;
      FromToLocalId(tiles[i], zoom);
    }
    forall t | ValidAt(t, zoom) && ToLocalId(t, zoom) in ids
      ensures t in tiles
    {
      var i :| 0 <= i < |ids| && ids[i] == ToLocalId(t, zoom);
      assert tiles[i] in tiles;
      ToLocalIdInjective(t, tiles[i], zoom);
    }
    forall t | t in tiles
      ensures ToLocalId(t, zoom) in ids
    {
      var i :| 0 <= i < |tiles| && tiles[i] == t;
      assert ids[i] == ToLocalId(t, zoom);
    }
  }

  function ToEntry(zoom: nat, s: Stored): Entry {
    Entry(s.geo, TilesOf(zoom, s.tileIds))
  }

  function ToEntries(zoom: nat, ss: seq<Stored>): seq<Entry> {
    seq(|ss|, i requires 0 <= i < |ss| => ToEntry(zoom, ss[i]))
  }

  /** `data.Get(buffer)`: every record of this layer's store, in storage order. */
  function LocalScan(l: LocalData): seq<Entry> {
    ToEntries(l.zoom, l.store)
  }

  /**
   * One layer as the builder writes it: an even zoom, a tile index sorted by tile id and
   * holding valid ids, a store sorted by key, an object index whose pointers hit the
   * record of their own key, an index entry for every stored record, and a tile index
   * entry for every tile a stored record belongs to.
   */
  ghost predicate ValidLocal(l: LocalData) {
    && ValidZoom(l.zoom)
    && Ascending(TileIds(l.tileIndex), IdRank)
    && (forall i :: 0 <= i < |l.tileIndex| ==> ValidId(l.tileIndex[i].tileId, l.zoom))
    && Ascending(l.store, StoredRank)
    && (forall k :: k in l.index && l.index[k].Ptr? ==>
          l.index[k].pointer < |l.store| && KeyOf(l.store[l.index[k].pointer].geo) == k)
    && (forall p :: 0 <= p < |l.store| ==>
          KeyOf(l.store[p].geo) in l.index && l.index[KeyOf(l.store[p].geo)] == Ptr(p))
    && (forall p, id :: 0 <= p < |l.store| && id in l.store[p].tileIds ==> HasTile(l, id))
  }

  /** Every layer of the chain is valid, and all share one zoom. */
  ghost predicate ValidLayer(layer: Layer)
    decreases layer
  {
    match layer
    case Full(l) => ValidLocal(l)
    case Diff(l, b) => ValidLocal(l) && ValidLayer(b) && b.local.zoom == l.zoom
  }

  /** The layers from this one down to the root. */
  function Chain(layer: Layer): (c: seq<Layer>)
    ensures |c| >= 1 && c[0] == layer
    decreases layer
  {
    match layer
    case Full(_) => [layer]
    case Diff(_, b) => [layer] + Chain(b)
  }

  lemma {:induction false} ChainValid(layer: Layer)
    requires ValidLayer(layer)
    ensures forall i :: 0 <= i < |Chain(layer)| ==>
      ValidLayer(Chain(layer)[i]) && Chain(layer)[i].local.zoom == layer.local.zoom
    decreases layer
  {
    if layer.Diff? {
      ChainValid(layer.base);
      assert forall i :: 0 < i < |Chain(layer)| ==> Chain(layer)[i] == Chain(layer.base)[i - 1];
    }
  }

  lemma ToEntriesAscending(zoom: nat, ss: seq<Stored>)
    requires Ascending(ss, StoredRank)
    ensures Ascending(ToEntries(zoom, ss), EntryRank)
  {
  }

  lemma ToEntriesMembers(zoom: nat, ss: seq<Stored>)
    ensures forall e :: e in ToEntries(zoom, ss) <==> exists p :: 0 <= p < |ss| && e == ToEntry(zoom, ss[p])
  {
    var es := ToEntries(zoom, ss);
    forall e | e in es
      ensures exists p :: 0 <= p < |ss| && e == ToEntry(zoom, ss[p])
    {
      var p :| 0 <= p < |es| && es[p] == e;
    }
    forall p | 0 <= p < |ss|
      ensures ToEntry(zoom, ss[p]) in es
    {
      assert es[p] == ToEntry(zoom, ss[p]);
    }
  }
}

=== FILE: merge.dfy ===
/**
 * The sorted two-pointer merge used by every multi-layer read: two sequences, each
 * strictly ascending by key, become one ascending sequence; on equal keys the element
 * of the more local (later) layer is kept and the base's one is dropped.
 */
module SortedMerge {

  /** Strictly ascending by key: sorted, and no two elements share a key. */
  ghost predicate Ascending<T>(s: seq<T>, key: T -> int) {
    forall i, j :: 0 <= i < j < |s| ==> key(s[i]) < key(s[j])
  }

  ghost function KeySet<T>(s: seq<T>, key: T -> int): set<int> {
    set i | 0 <= i < |s| :: key(s[i])
  }

  /** Keeps the elements that satisfy `p`, in order. */
  function Filter<T>(s: seq<T>, p: T -> bool): seq<T> {
    if |s| == 0 then []
    else Filter(s[..|s| - 1], p) + (if p(s[|s| - 1]) then [s[|s| - 1]] else [])
  }

  /** The merge, with the base first and the local sequence second. */
  function Merge<T>(base: seq<T>, local: seq<T>, key: T -> int): seq<T>
    decreases |base| + |local|
  {
    if |base| == 0 then local
    else if |local| == 0 then base
    else if key(base[0]) < key(local[0]) then [base[0]] + Merge(base[1..], local, key)
    else if key(local[0]) < key(base[0]) then [local[0]] + Merge(base, local[1..], key)
    else [local[0]] + Merge(base[1..], local[1..], key)
  }

  lemma {:induction false} FilterMembers<T>(s: seq<T>, p: T -> bool)
    ensures forall x :: x in Filter(s, p) <==> x in s && p(x)
  {
    if |s| > 0 {
      FilterMembers(s[..|s| - 1], p);
      assert s == s[..|s| - 1] + [s[|s| - 1]];
    }
  }

  lemma {:induction false} FilterNone<T>(s: seq<T>, p: T -> bool)
    requires forall x :: x in s ==> !p(x)
    ensures Filter(s, p) == []
  {
    if |s| > 0 {
      assert forall x :: x in s[..|s| - 1] ==> x in s;
      FilterNone(s[..|s| - 1], p);
      assert s[|s| - 1] in s;
    }
  }

  lemma {:induction false} FilterAscending<T>(s: seq<T>, p: T -> bool, key: T -> int)
    requires Ascending(s, key)
    ensures Ascending(Filter(s, p), key)
  {
    if |s| > 0 {
      var init := s[..|s| - 1];
      FilterAscending(init, p, key);
      FilterMembers(init, p);
      var f := Filter(init, p);
      forall i | 0 <= i < |f|
        ensures key(f[i]) < key(s[|s| - 1])
      {
        FilterElementIn(init, p, i);
        var k :| 0 <= k < |init| && init[k] == f[i];
        assert s[k] == init[k];
      }
    }
  }

  lemma FilterElementIn<T>(s: seq<T>, p: T -> bool, i: nat)
    requires i < |Filter(s, p)|
    ensures Filter(s, p)[i] in s && p(Filter(s, p)[i])
  {
    FilterMembers(s, p);
    var f := Filter(s, p);
    assert f[i] in f;
  }

  lemma HeadIsLeast<T>(s: seq<T>, key: T -> int)
    requires Ascending(s, key) && |s| > 0
    ensures forall x :: x in s[1..] ==> key(s[0]) < key(x)
    ensures forall x :: x in s ==> key(s[0]) <= key(x)
  {
  }

  lemma ConsAscending<T>(h: T, s: seq<T>, key: T -> int)
    requires Ascending(s, key)
    requires forall x :: x in s ==> key(h) < key(x)
    ensures Ascending([h] + s, key)
  {
    var r := [h] + s;
    forall i, j | 0 <= i < j < |r|
      ensures key(r[i]) < key(r[j])
    {
      assert r[j] == s[j - 1];
      if i > 0 {
        assert r[i] == s[i - 1];
      } else {
        assert s[j - 1] in s;
      }
    }
  }

  /** Two elements of an ascending sequence with the same key are the same element. */
  lemma AscendingUniqueKeys<T>(s: seq<T>, key: T -> int, x: T, y: T)
    requires Ascending(s, key) && x in s && y in s && key(x) == key(y)
    ensures x == y
  {
  }

  /**
   * What the merge keeps: it invents nothing, keeps every local element, and keeps
   * every base element whose key the local sequence does not hold.
   */
  lemma {:induction false} MergeMembers<T>(base: seq<T>, local: seq<T>, key: T -> int)
    ensures forall x :: x in Merge(base, local, key) ==> x in base || x in local
    ensures forall x :: x in local ==> x in Merge(base, local, key)
    ensures forall x :: x in base && key(x) !in KeySet(local, key) ==> x in Merge(base, local, key)
    decreases |base| + |local|
  {
    if |base| == 0 || |local| == 0 {
    } else {
      assert base == [base[0]] + base[1..];
      assert local == [local[0]] + local[1..];
      assert key(local[0]) in KeySet(local, key);
      assert KeySet(local[1..], key) <= KeySet(local, key) by {
        forall k | k in KeySet(local[1..], key) ensures k in KeySet(local, key) {
          var i :| 0 <= i < |local[1..]| && local[1..][i] == local[i + 1] && key(local[1..][i]) == k;
        }
      }
      if key(base[0]) < key(local[0]) {
        MergeMembers(base[1..], local, key);
      } else if key(local[0]) < key(base[0]) {
        MergeMembers(base, local[1..], key);
      } else {
        MergeMembers(base[1..], local[1..], key);
      }
    }
  }

  /** The keys of the merge are the keys of both inputs. */
  lemma {:induction false} MergeKeys<T>(base: seq<T>, local: seq<T>, key: T -> int)
    ensures KeySet(Merge(base, local, key), key) == KeySet(base, key) + KeySet(local, key)
    decreases |base| + |local|
  {
    if |base| > 0 && |local| > 0 {
      var b, l := base[1..], local[1..];
      assert KeySet(base, key) == {key(base[0])} + KeySet(b, key) by {
        assert forall i :: 0 < i < |base| ==> base[i] == b[i - 1];
      }
      assert KeySet(local, key) == {key(local[0])} + KeySet(l, key) by {
        assert forall i :: 0 < i < |local| ==> local[i] == l[i - 1];
      }
      if key(base[0]) < key(local[0]) {
        MergeKeys(b, local, key);
        KeySetCons(base[0], Merge(b, local, key), key);
      } else if key(local[0]) < key(base[0]) {
        MergeKeys(base, l, key);
        KeySetCons(local[0], Merge(base, l, key), key);
      } else {
        MergeKeys(b, l, key);
        KeySetCons(local[0], Merge(b, l, key), key);
      }
    }
  }

  lemma KeySetCons<T>(h: T, s: seq<T>, key: T -> int)
    ensures KeySet([h] + s, key) == {key(h)} + KeySet(s, key)
  {
    var r := [h] + s;
    forall k | k in KeySet(r, key)
      ensures k in {key(h)} + KeySet(s, key)
    {
      var i :| 0 <= i < |r| && key(r[i]) == k;
      if i > 0 {
        assert r[i] == s[i - 1];
      }
    }
    forall k | k in KeySet(s, key)
      ensures k in KeySet(r, key)
    {
      var i :| 0 <= i < |s| && key(s[i]) == k;
      assert r[i + 1] == s[i];
    }
    assert key(r[0]) == key(h);
  }

  /** Two ascending inputs give an ascending merge. */
  lemma {:induction false} MergeAscending<T>(base: seq<T>, local: seq<T>, key: T -> int)
    requires Ascending(base, key) && Ascending(local, key)
    ensures Ascending(Merge(base, local, key), key)
    decreases |base| + |local|
  {
    if |base| > 0 && |local| > 0 {
      HeadIsLeast(base, key);
      HeadIsLeast(local, key);
      if key(base[0]) < key(local[0]) {
        MergeAscending(base[1..], local, key);
        MergeMembers(base[1..], local, key);
        ConsAscending(base[0], Merge(base[1..], local, key), key);
      } else if key(local[0]) < key(base[0]) {
        MergeAscending(base, local[1..], key);
        MergeMembers(base, local[1..], key);
        ConsAscending(local[0], Merge(base, local[1..], key), key);
      } else {
        MergeAscending(base[1..], local[1..], key);
        MergeMembers(base[1..], local[1..], key);
        ConsAscending(local[0], Merge(base[1..], local[1..], key), key);
      }
    }
  }

  /**
   * Local precedence: on two ascending inputs, an output element sharing its key with a
   * local element is that local element, so the base's duplicate was dropped.
   */
  lemma MergeLocalWins<T>(base: seq<T>, local: seq<T>, key: T -> int, x: T, y: T)
    requires Ascending(base, key) && Ascending(local, key)
    requires x in Merge(base, local, key) && y in local && key(x) == key(y)
    ensures x == y
  {
    MergeAscending(base, local, key);
    MergeMembers(base, local, key);
    AscendingUniqueKeys(Merge(base, local, key), key, x, y);
  }

  /** One step of the merge from cursor positions `i` and `j`. */
  lemma MergeStep<T>(base: seq<T>, local: seq<T>, key: T -> int, i: nat, j: nat)
    requires i <= |base| && j <= |local| && (i < |base| || j < |local|)
    ensures Merge(base[i..], local[j..], key) ==
      if i < |base| && j < |local| then
        if key(base[i]) < key(local[j]) then [base[i]] + Merge(base[i + 1..], local[j..], key)
        else if key(local[j]) < key(base[i]) then [local[j]] + Merge(base[i..], local[j + 1..], key)
        else [local[j]] + Merge(base[i + 1..], local[j + 1..], key)
      else if i < |base| then [base[i]] + Merge(base[i + 1..], local[j..], key)
      else [local[j]] + Merge(base[i..], local[j + 1..], key)
  {
    var b, l := base[i..], local[j..];
    if i < |base| {
      assert b[1..] == base[i + 1..];
      assert b == [base[i]] + base[i + 1..];
    }
    if j < |local| {
      assert l[1..] == local[j + 1..];
      assert l == [local[j]] + local[j + 1..];
    }
  }

  lemma AppendAssoc<T>(a: seq<T>, b: seq<T>, c: seq<T>)
    ensures (a + b) + c == a + (b + c)
  {
  }

  /**
   * The merge loop of the layer reads: two cursors, `baseHasNext` and `thisHasNext`,
   * advance until both inputs are exhausted; each round emits one element.
   */
  method MergeLoop<T>(base: seq<T>, local: seq<T>, key: T -> int) returns (r: seq<T>)
    ensures r == Merge(base, local, key)
    ensures Ascending(base, key) && Ascending(local, key) ==> Ascending(r, key)
  {
    var i, j := 0, 0;
    var baseHasNext, thisHasNext := |base| > 0, |local| > 0;
    r := [];
    while baseHasNext || thisHasNext
      invariant 0 <= i <= |base| && 0 <= j <= |local|
      invariant baseHasNext == (i < |base|) && thisHasNext == (j < |local|)
      invariant r + Merge(base[i..], local[j..], key) == Merge(base, local, key)
      decreases |base| - i + |local| - j
    {
      MergeStep(base, local, key, i, j);
      ghost var emitted := r;
      var x;
      if baseHasNext && thisHasNext {
        var baseKey, thisKey := key(base[i]), key(local[j]);
        if baseKey < thisKey {
          x, i := base[i], i + 1;
        } else if thisKey < baseKey {
          x, j := local[j], j + 1;
        } else {
          // equal keys: the local element is emitted and both cursors advance
          x, i, j := local[j], i + 1, j + 1;
        }
      } else if baseHasNext {
        x, i := base[i], i + 1;
      } else {
        x, j := local[j], j + 1;
      }
      r := r + [x];
      AppendAssoc(emitted, [x], Merge(base[i..], local[j..], key));
      baseHasNext, thisHasNext := i < |base|, j < |local|;
    }
    if Ascending(base, key) && Ascending(local, key) {
      MergeAscending(base, local, key);
    }
  }
}

=== FILE: optional.dfy ===
/** Option and Result values: absence of an index entry, and errors the source throws. */
module Optional {

  datatype Option<+T> = None | Some(value: T)

  datatype Result<+R, +E> = Success(value: R) | Failure(error: E)
}

=== FILE: paths.dfy ===
/**
 * The on-disk path builders: tile data, per-object, index, deleted-index and meta
 * paths, each chosen by object type and, for data files, a compression flag. Paths are
 * built by joining segments with a separator. Zoom and tile coordinates are written in
 * invariant-culture decimal; an object id is written by string interpolation, which
 * follows the current culture, and is modelled here as plain decimal with a leading `-`
 * for negative ids.
 */
module Paths {
  import opened Keys

  /** A tile with its zoom level, as the path builders receive it. */
  datatype TileAddress = TileAddress(zoom: nat, x: nat, y: nat)

  const Separator: char := '/'

  /** `Combine(a, b)` on two segments. */
  function Join(a: string, b: string): string {
    a + [Separator] + b
  }

  /** `Combine(segments)`: the segments joined left to right with the separator. */
  function Combine(segments: seq<string>): string {
    if |segments| == 0 then ""
    else if |segments| == 1 then segments[0]
    else Join(Combine(segments[..|segments| - 1]), segments[|segments| - 1])
  }

  // ---------------------------------------------------------------------------------
  // Decimal numbers

  predicate IsDigit(c: char) {
    '0' <= c <= '9'
  }

  function Digit(d: nat): (c: char)
    requires d < 10
    ensures IsDigit(c)
  {
    (('0' as int) + d) as char
  }

  function DigitValue(c: char): nat {
    if IsDigit(c) then (c as int) - ('0' as int) else 0
  }

  /** `ToInvariantString` of an unsigned number: its decimal digits, most significant first. */
  function NatToString(n: nat): (s: string)
    ensures |s| >= 1 && IsDigit(s[0])
    ensures forall i :: 0 <= i < |s| ==> IsDigit(s[i])
    decreases n
  {
    if n < 10 then [Digit(n)] else NatToString(n / 10) + [Digit(n % 10)]
  }

  /** An id as string interpolation writes it, taking a culture whose negative sign is `-`. */
  function IntToString(i: int): (s: string)
    ensures forall j :: 0 <= j < |s| ==> IsDigit(s[j]) || s[j] == '-'
  {
    if i < 0 then ['-'] + NatToString(-i) else NatToString(i)
  }

  /** Reads decimal digits back into a number. */
  function StringToNat(s: string): nat {
    if |s| == 0 then 0 else StringToNat(s[..|s| - 1]) * 10 + DigitValue(s[|s| - 1])
  }

  /** Reads an optionally signed decimal number back. */
  function StringToInt(s: string): int {
    if |s| > 0 && s[0] == '-' then -(StringToNat(s[1..]) as int) else StringToNat(s)
  }

  /** Writing a number in decimal and reading it back gives the number. */
  lemma {:induction false} NatToStringRoundTrip(n: nat)
    ensures StringToNat(NatToString(n)) == n
    decreases n
  {
    if n >= 10 {
      NatToStringRoundTrip(n / 10);
      var s := NatToString(n);
      assert s[..|s| - 1] == NatToString(n / 10);
    } else {
      assert NatToString(n)[..0] == [];
    }
  }

  /** Writing a signed number and reading it back gives the number. */
  lemma IntToStringRoundTrip(i: int)
    ensures StringToInt(IntToString(i)) == i
  {
    if i < 0 {
      NatToStringRoundTrip(-i);
      assert IntToString(i)[1..] == NatToString(-i);
    } else {
      NatToStringRoundTrip(i);
    }
  }

  // ---------------------------------------------------------------------------------
  // File names by object type

  /** Tile data file suffix; every type other than node and way gets the relations one. */
  function TileSuffix(kind: OsmGeoType): string {
    match kind
    case Node => ".nodes.osm.bin"
    case Way => ".ways.osm.bin"
    case _ => ".relations.osm.bin"
  }

  /** Per-object file suffix. */
  function ObjectSuffix(kind: OsmGeoType): string {
    match kind
    case Node => ".node.osm.bin"
    case Way => ".way.osm.bin"
    case _ => ".relation.osm.bin"
  }

  /** Index file suffix used by `PathToIndex`. */
  function IndexSuffix(kind: OsmGeoType): string {
    match kind
    case Node => ".nodes.idx"
    case Way => ".ways.idx"
    case _ => ".relations.idx"
  }

  /** Deleted-index file suffix used by `PathToDeletedIndex`. */
  function DeletedIndexSuffix(kind: OsmGeoType): string {
    match kind
    case Node => ".nodes.idx.deleted"
    case Way => ".ways.idx.deleted"
    case _ => ".relations.idx.deleted"
  }

  /** The extension chosen inside `LoadIndex`/`SaveIndex`: nodes unless way or relation. */
  function IndexExtension(kind: OsmGeoType): string {
    match kind
    case Way => ".ways.idx"
    case Relation => ".relations.idx"
    case _ => ".nodes.idx"
  }

  function Compressed(location: string, compressed: bool): string {
    if compressed then location + ".zip" else location
  }

  predicate EndsWith(s: string, suffix: string) {
    |suffix| <= |s| && s[|s| - |suffix|..] == suffix
  }

  // ---------------------------------------------------------------------------------
  // The path builders

  /** `PathToMeta`. */
  function PathToMeta(path: string): (r: string)
    ensures r == path + "/meta.bin"
  {
    var segments := [path, "meta.bin"];
    assert segments[..1] == [path];
    assert Combine(segments) == Join(path, "meta.bin");
    assert path + "/meta.bin" == path + [Separator] + "meta.bin";
    Combine(segments)
  }

  /** `PathToTile`. */
  function PathToTile(path: string, kind: OsmGeoType, tile: TileAddress, compressed: bool): string {
    var location := Combine([path, NatToString(tile.zoom), NatToString(tile.x)]);
    Compressed(Join(location, NatToString(tile.y) + TileSuffix(kind)), compressed)
  }

  /** The file name of one object: its id and its type's suffix. */
  function ObjectName(geo: OsmGeo): string {
    IntToString(geo.id) + ObjectSuffix(geo.kind)
  }

  /** `BuildPathToLocalTileObject`. */
  function BuildPathToLocalTileObject(path: string, tile: TileAddress, geo: OsmGeo, compressed: bool): string {
    var location := Combine([path, NatToString(tile.zoom), NatToString(tile.x), NatToString(tile.y)]);
    Compressed(Join(location, ObjectName(geo)), compressed)
  }

  /** `PathToIndex`. */
  function PathToIndex(path: string, kind: OsmGeoType, tile: TileAddress): string {
    var location := Combine([path, NatToString(tile.zoom), NatToString(tile.x)]);
    Join(location, NatToString(tile.y) + IndexSuffix(kind))
  }

  /** `PathToDeletedIndex`. */
  function PathToDeletedIndex(path: string, tile: TileAddress, kind: OsmGeoType): string {
    var location := Combine([path, NatToString(tile.zoom), NatToString(tile.x)]);
    Join(location, NatToString(tile.y) + DeletedIndexSuffix(kind))
  }

  /** The location built inside `LoadIndex` and `SaveIndex`. */
  function IndexLocation(path: string, tile: TileAddress, kind: OsmGeoType): string {
    Combine([path, NatToString(tile.zoom), NatToString(tile.x), NatToString(tile.y) + IndexExtension(kind)])
  }

  // ---------------------------------------------------------------------------------
  // Properties

  /**
   * A tile data path is `path/zoom/x/y` with the type's suffix, and `.zip` appended
   * exactly when compressed.
   */
  lemma PathToTileShape(path: string, kind: OsmGeoType, tile: TileAddress, compressed: bool)
    ensures PathToTile(path, kind, tile, compressed) ==
      path + "/" + NatToString(tile.zoom) + "/" + NatToString(tile.x) + "/" +
      NatToString(tile.y) + TileSuffix(kind) + (if compressed then ".zip" else "")
    ensures kind != Node && kind != Way ==> TileSuffix(kind) == ".relations.osm.bin"
  {
    var segs := [path, NatToString(tile.zoom), NatToString(tile.x)];
    assert segs[..2][..1] == [path];
    assert segs[..2] == [path, NatToString(tile.zoom)];
    assert Combine(segs[..2]) == path + "/" + NatToString(tile.zoom);
    assert Combine(segs) == path + "/" + NatToString(tile.zoom) + "/" + NatToString(tile.x);
  }

  /**
   * The compression flag only appends `.zip`: the compressed path is the plain one plus
   * `.zip`, and a path ends in `.zip` exactly when compressed, for tile data and
   * per-object files alike.
   */
  lemma CompressedOnlyAppendsZip(path: string, kind: OsmGeoType, tile: TileAddress, geo: OsmGeo, compressed: bool)
    ensures PathToTile(path, kind, tile, true) == PathToTile(path, kind, tile, false) + ".zip"
    ensures BuildPathToLocalTileObject(path, tile, geo, true) ==
      BuildPathToLocalTileObject(path, tile, geo, false) + ".zip"
    ensures EndsWith(PathToTile(path, kind, tile, compressed), ".zip") <==> compressed
    ensures EndsWith(BuildPathToLocalTileObject(path, tile, geo, compressed), ".zip") <==> compressed
  {
    var tileLocation := Combine([path, NatToString(tile.zoom), NatToString(tile.x)]);
    TileFileIsBin(tileLocation, tile.y, kind);
    ZipExactlyWhenCompressed(Join(tileLocation, NatToString(tile.y) + TileSuffix(kind)), compressed);
    var objectLocation := Combine([path, NatToString(tile.zoom), NatToString(tile.x), NatToString(tile.y)]);
    ObjectFileIsBin(objectLocation, geo);
    ZipExactlyWhenCompressed(Join(objectLocation, ObjectName(geo)), compressed);
  }

  /** A tile data file name ends in `.bin`. */
  lemma TileFileIsBin(location: string, y: nat, kind: OsmGeoType)
    ensures EndsWith(Join(location, NatToString(y) + TileSuffix(kind)), ".bin")
  {
    BinAppended(Join(location, NatToString(y)), TileSuffix(kind));
    assert Join(location, NatToString(y) + TileSuffix(kind)) == Join(location, NatToString(y)) + TileSuffix(kind);
  }

  /** A per-object file name ends in `.bin`. */
  lemma ObjectFileIsBin(location: string, geo: OsmGeo)
    ensures EndsWith(Join(location, ObjectName(geo)), ".bin")
  {
    BinAppended(Join(location, IntToString(geo.id)), ObjectSuffix(geo.kind));
    assert Join(location, ObjectName(geo)) == Join(location, IntToString(geo.id)) + ObjectSuffix(geo.kind);
  }

  /** A location ending in `.bin` ends in `.zip` once compressed, and only then. */
  lemma ZipExactlyWhenCompressed(location: string, compressed: bool)
    requires EndsWith(location, ".bin")
    ensures EndsWith(Compressed(location, compressed), ".zip") <==> compressed
  {
    var z := location + ".zip";
    assert z[|z| - 4..] == ".zip";
  }

  /** Every data file suffix ends in `.bin`, so a name built with one does too. */
  lemma BinAppended(prefix: string, suffix: string)
    requires suffix in {".nodes.osm.bin", ".ways.osm.bin", ".relations.osm.bin",
      ".node.osm.bin", ".way.osm.bin", ".relation.osm.bin"}
    ensures EndsWith(prefix + suffix, ".bin")
  {
    assert suffix[|suffix| - 4..] == ".bin";
    assert (prefix + suffix)[|prefix + suffix| - 4..] == suffix[|suffix| - 4..];
  }

  /** The position of the first `.` in a string (its length when there is none). */
  function FirstDot(s: string): (i: nat)
    ensures i <= |s|
  {
    if |s| == 0 then 0 else if s[0] == '.' then 0 else 1 + FirstDot(s[1..])
  }

  lemma {:induction false} FirstDotAfter(a: string, s: string)
    requires forall i :: 0 <= i < |a| ==> a[i] != '.'
    requires |s| > 0 && s[0] == '.'
    ensures FirstDot(a + s) == |a|
  {
    if |a| > 0 {
      assert (a + s)[1..] == a[1..] + s;
      FirstDotAfter(a[1..], s);
    }
  }

  function KindOfSuffix(suffix: string): OsmGeoType {
    if suffix == ".node.osm.bin" then Node
    else if suffix == ".way.osm.bin" then Way
    else Relation
  }

  /** Reads the type and id back out of an object file name. */
  function ParseObjectName(name: string): (OsmGeoType, int) {
    var dot := FirstDot(name);
    (KindOfSuffix(name[dot..]), StringToInt(name[..dot]))
  }

  /** An object file name gives back the object's type and id. */
  lemma ObjectNameRoundTrip(geo: OsmGeo)
    ensures ParseObjectName(ObjectName(geo)) == (geo.kind, geo.id)
  {
    var a, s := IntToString(geo.id), ObjectSuffix(geo.kind);
    FirstDotAfter(a, s);
    assert ObjectName(geo)[..|a|] == a;
    assert ObjectName(geo)[|a|..] == s;
    IntToStringRoundTrip(geo.id);
  }

  /**
   * In one tile directory, with one compression flag, two objects that differ in type
   * or id get different files.
   */
  lemma ObjectPathInjective(path: string, tile: TileAddress, g1: OsmGeo, g2: OsmGeo, compressed: bool)
    requires BuildPathToLocalTileObject(path, tile, g1, compressed) ==
      BuildPathToLocalTileObject(path, tile, g2, compressed)
    ensures g1.kind == g2.kind && g1.id == g2.id
  {
    var location := Combine([path, NatToString(tile.zoom), NatToString(tile.x), NatToString(tile.y)]);
    var p1, p2 := Join(location, ObjectName(g1)), Join(location, ObjectName(g2));
    if compressed {
      assert p1 == (p1 + ".zip")[..|p1 + ".zip"| - 4];
      assert p2 == (p2 + ".zip")[..|p2 + ".zip"| - 4];
    }
    assert p1 == p2;
    assert ObjectName(g1) == p1[|location| + 1..];
    assert ObjectName(g2) == p2[|location| + 1..];
    ObjectNameRoundTrip(g1);
    ObjectNameRoundTrip(g2);
  }

  /** For every type the deleted-index path is the index path with `.deleted` appended. */
  lemma DeletedIndexIsIndexPlusDeleted(path: string, tile: TileAddress, kind: OsmGeoType)
    ensures PathToDeletedIndex(path, tile, kind) == PathToIndex(path, kind, tile) + ".deleted"
  {
    var location := Combine([path, NatToString(tile.zoom), NatToString(tile.x)]);
    var y := NatToString(tile.y);
    assert DeletedIndexSuffix(kind) == IndexSuffix(kind) + ".deleted";
    assert Join(location, y + DeletedIndexSuffix(kind)) == Join(location, y + IndexSuffix(kind)) + ".deleted";
  }

  /**
   * For node, way and relation the location `LoadIndex`/`SaveIndex` build is the index
   * path, although their default type (node) differs from `PathToIndex`'s (relation).
   */
  lemma IndexLocationMatchesPathToIndex(path: string, tile: TileAddress, kind: OsmGeoType)
    ensures IndexLocation(path, tile, kind) == PathToIndex(path, kind, tile)
  {
    var segs := [path, NatToString(tile.zoom), NatToString(tile.x),
      NatToString(tile.y) + IndexExtension(kind)];
    assert segs[..3] == [path, NatToString(tile.zoom), NatToString(tile.x)];
  }
}

=== FILE: resolution.dfy ===
/**
 * Per-key and per-tile resolution along the chain of layers: which layer answers for an
 * object key, which tiles a key belongs to, which layer owns a tile, and which tiles a
 * layer can enumerate.
 */
module Resolution {
  import opened Optional
  import opened Keys
  import opened Tiles
  import opened SortedMerge
  import opened Layers

  /**
   * The three-way rule for one key: a local pointer answers with the local object, a
   * local tombstone answers "nothing" without asking the base, and an absent key is
   * asked of the base. The root has no base: an absent key resolves to nothing.
   */
  function Resolve(layer: Layer, k: Key): (r: Option<Entry>)
    requires ValidLayer(layer)
    ensures r.Some? ==> KeyOf(r.value.geo) == k
    decreases layer
  {
    var l := layer.local;
    if k in l.index then
      match l.index[k]
      case Ptr(p) => Some(ToEntry(l.zoom, l.store[p]))
      case Deleted => None
    else if layer.Full? then None
    else Resolve(layer.base, k)
  }

  /**
   * The layer that decides a key is the nearest one, walking from this layer toward the
   * root, that holds any entry for it: a pointer there gives that layer's object, a
   * tombstone there hides every older version.
   */
  lemma {:induction false} ResolveFirstEntry(layer: Layer, k: Key, i: nat)
    requires ValidLayer(layer)
    requires i < |Chain(layer)| && k in Chain(layer)[i].local.index
    requires forall j :: 0 <= j < i ==> k !in Chain(layer)[j].local.index
    ensures Chain(layer)[i].local.index[k].Deleted? ==> Resolve(layer, k) == None
    ensures Chain(layer)[i].local.index[k].Ptr? ==>
      var l := Chain(layer)[i].local;
      l.index[k].pointer < |l.store| &&
      Resolve(layer, k) == Some(ToEntry(l.zoom, l.store[l.index[k].pointer]))
    decreases layer
  {
    ChainValid(layer);
    if i > 0 {
      assert k !in layer.local.index by {
        assert Chain(layer)[0] == layer;
      }
      assert Chain(layer) == [layer] + Chain(layer.base);
      forall j | 0 <= j < i - 1
        ensures k !in Chain(layer.base)[j].local.index
      {
        assert Chain(layer.base)[j] == Chain(layer)[j + 1];
      }
      ResolveFirstEntry(layer.base, k, i - 1);
    }
  }

  /** A key no layer of the chain has an entry for resolves to nothing. */
  lemma {:induction false} ResolveAbsentEverywhere(layer: Layer, k: Key)
    requires ValidLayer(layer)
    requires forall j :: 0 <= j < |Chain(layer)| ==> k !in Chain(layer)[j].local.index
    ensures Resolve(layer, k) == None
    decreases layer
  {
    assert Chain(layer)[0] == layer;
    if layer.Diff? {
      forall j | 0 <= j < |Chain(layer.base)|
        ensures k !in Chain(layer.base)[j].local.index
      {
        assert Chain(layer.base)[j] == Chain(layer)[j + 1];
      }
      ResolveAbsentEverywhere(layer.base, k);
    }
  }

  /**
   * `GetTilesFor(key)`: a tombstone here yields no tiles, an absent key yields the base's
   * tiles for it, and a local pointer yields the tiles of the local record.
   */
  function TilesFor(layer: Layer, k: Key): seq<Tile>
    requires ValidLayer(layer)
    decreases layer
  {
    var l := layer.local;
    if k in l.index && l.index[k].Deleted? then []
    else if k !in l.index then (if layer.Full? then [] else TilesFor(layer.base, k))
    else TilesOf(l.zoom, l.store[l.index[k].pointer].tileIds)
  }

  /** The tiles reported for a key are those of the object the key resolves to. */
  lemma {:induction false} TilesForMatchesResolve(layer: Layer, k: Key)
    requires ValidLayer(layer)
    ensures TilesFor(layer, k) == match Resolve(layer, k) case Some(e) => e.tiles case None => []
    decreases layer
  {
    if k !in layer.local.index && layer.Diff? {
      TilesForMatchesResolve(layer.base, k);
    }
  }

  /**
   * `GetTilesFor(keys)`: one answer per requested key, in request order, each the tiles
   * of the object that key resolves to (none when it resolves to nothing).
   */
  function TilesForKeys(layer: Layer, keys: seq<Key>): (r: seq<(Key, seq<Tile>)>)
    requires ValidLayer(layer)
    ensures |r| == |keys|
    ensures forall i :: 0 <= i < |keys| ==>
      (r[i].0 == keys[i] &&
       r[i].1 == match Resolve(layer, keys[i]) case Some(e) => e.tiles case None => [])
  {
    var r := seq(|keys|, i requires 0 <= i < |keys| => (keys[i], TilesFor(layer, keys[i])));
    assert forall i :: 0 <= i < |keys| ==> r[i] == (keys[i], TilesFor(layer, keys[i]));
    TilesForKeysHelper(layer, keys);
    r
  }

  lemma TilesForKeysHelper(layer: Layer, keys: seq<Key>)
    requires ValidLayer(layer)
    ensures forall i :: 0 <= i < |keys| ==>
      TilesFor(layer, keys[i]) == match Resolve(layer, keys[i]) case Some(e) => e.tiles case None => []
  {
    forall i | 0 <= i < |keys| {
      TilesForMatchesResolve(layer, keys[i]);
    }
  }

  /**
   * `GetDbForTile`: this layer when its tile index has the tile, otherwise the base's
   * answer for the same tile; the root answers nothing when it lacks the tile.
   */
  function DbForTile(layer: Layer, t: Tile): (r: Option<Layer>)
    ensures r.Some? ==> HasTileAt(r.value, t)
    ensures r.None? ==> !HasTileAt(layer, t)
    decreases layer
  {
    if HasTileAt(layer, t) then Some(layer)
    else if layer.Full? then None
    else DbForTile(layer.base, t)
  }

  /** A layer is found for a tile exactly when some layer of the chain holds the tile. */
  lemma {:induction false} DbForTileFound(layer: Layer, t: Tile)
    ensures DbForTile(layer, t).Some? <==>
      exists i :: 0 <= i < |Chain(layer)| && HasTileAt(Chain(layer)[i], t)
    decreases layer
  {
    if layer.Full? {
      assert Chain(layer) == [layer];
    } else {
      DbForTileFound(layer.base, t);
      ChainHoldsTile(layer, t);
    }
  }

  /** Some layer of a diff's chain holds a tile iff the diff or some layer below it does. */
  lemma ChainHoldsTile(layer: Layer, t: Tile)
    requires layer.Diff?
    ensures (exists i :: 0 <= i < |Chain(layer)| && HasTileAt(Chain(layer)[i], t)) <==>
      HasTileAt(layer, t) || exists i :: 0 <= i < |Chain(layer.base)| && HasTileAt(Chain(layer.base)[i], t)
  {
    var c, cb := Chain(layer), Chain(layer.base);
    assert c == [layer] + cb;
    if HasTileAt(layer, t) {
      assert HasTileAt(c[0], t);
      assert exists i :: 0 <= i < |Chain(layer)| && HasTileAt(Chain(layer)[i], t);
    } else if i :| 0 <= i < |cb| && HasTileAt(cb[i], t) {
      assert c[i + 1] == cb[i];
      assert HasTileAt(c[i + 1], t);
      assert exists j :: 0 <= j < |Chain(layer)| && HasTileAt(Chain(layer)[j], t);
      assert exists j :: 0 <= j < |Chain(layer.base)| && HasTileAt(Chain(layer.base)[j], t);
    } else {
      forall i | 0 <= i < |c|
        ensures !HasTileAt(c[i], t)
      {
        if i > 0 {
          assert c[i] == cb[i - 1];
        }
      }
    }
  }

  /** The layer found for a tile is the first layer of the chain that holds it. */
  lemma {:induction false} DbForTileFirst(layer: Layer, t: Tile)
    requires DbForTile(layer, t).Some?
    ensures exists i :: (0 <= i < |Chain(layer)| && Chain(layer)[i] == DbForTile(layer, t).value &&
      HasTileAt(Chain(layer)[i], t) &&
      forall j :: 0 <= j < i ==> !HasTileAt(Chain(layer)[j], t))
    decreases layer
  {
    var c := Chain(layer);
    if HasTileAt(layer, t) {
      assert c[0] == DbForTile(layer, t).value;
    } else {
      DbForTileFirst(layer.base, t);
      var cb := Chain(layer.base);
      assert c == [layer] + cb;
      var i :| 0 <= i < |cb| && cb[i] == DbForTile(layer, t).value && HasTileAt(cb[i], t) &&
        forall j :: 0 <= j < i ==> !HasTileAt(cb[j], t);
      forall j | 0 <= j < i + 1
        ensures !HasTileAt(c[j], t)
      {
        if j > 0 {
          assert c[j] == cb[j - 1];
        }
      }
      assert c[i + 1] == cb[i];
    }
  }

  /**
   * The layer found for a tile is the nearest one in the chain whose tile index holds
   * the tile; none is found exactly when no layer of the chain holds it.
   */
  lemma DbForTileIsNearestOwner(layer: Layer, t: Tile)
    ensures DbForTile(layer, t).Some? <==>
      exists i :: 0 <= i < |Chain(layer)| && HasTileAt(Chain(layer)[i], t)
    ensures DbForTile(layer, t).Some? ==>
      exists i :: 0 <= i < |Chain(layer)| && Chain(layer)[i] == DbForTile(layer, t).value &&
        HasTileAt(Chain(layer)[i], t) &&
        forall j :: 0 <= j < i ==> !HasTileAt(Chain(layer)[j], t)
  {
    DbForTileFound(layer, t);
    if DbForTile(layer, t).Some? {
      DbForTileFirst(layer, t);
    }
  }

  /** Asking the layer found for a tile again finds that same layer. */
  lemma DbForTileIdempotent(layer: Layer, t: Tile)
    requires DbForTile(layer, t).Some?
    ensures DbForTile(DbForTile(layer, t).value, t) == DbForTile(layer, t)
    decreases layer
  {
    if !HasTileAt(layer, t) && layer.Diff? {
      DbForTileIdempotent(layer.base, t);
    }
  }

  /**
   * `GetTiles(modifiedOnly)`: with `modifiedOnly` only the tiles of this layer's tile
   * index; otherwise the base's tiles (as local ids) merged with this layer's. The root
   * enumerates its own tile index.
   */
  function GetTiles(layer: Layer, modifiedOnly: bool): seq<Tile>
    decreases layer
  {
    var l := layer.local;
    match layer
    case Full(_) => TilesOf(l.zoom, TileIds(l.tileIndex))
    case Diff(_, b) =>
      if modifiedOnly then TilesOf(l.zoom, TileIds(l.tileIndex))
      else TilesOf(l.zoom, Merge(IdsOf(l.zoom, GetTiles(b, false)), TileIds(l.tileIndex), IdRank))
  }

  /** The local tile ids of every layer in the chain. */
  ghost function ChainTileIds(layer: Layer): set<nat>
    decreases layer
  {
    var own := set m | m in TileIds(layer.local.tileIndex);
    match layer
    case Full(_) => own
    case Diff(_, b) => own + ChainTileIds(b)
  }

  /** The tiles of a layer's own tile index are exactly its valid tiles with a local id there. */
  lemma OwnTiles(l: LocalData)
    requires ValidLocal(l)
    ensures Ascending(IdsOf(l.zoom, TilesOf(l.zoom, TileIds(l.tileIndex))), IdRank)
    ensures forall t :: t in TilesOf(l.zoom, TileIds(l.tileIndex)) <==>
      ValidAt(t, l.zoom) && HasTile(l, ToLocalId(t, l.zoom))
  {
    TilesOfMembers(l.zoom, TileIds(l.tileIndex));
  }

  /**
   * With `modifiedOnly`, a diff layer yields exactly the valid tiles of its own tile
   * index, in ascending local id, whatever its base is: the base is never consulted.
   */
  lemma ModifiedTilesAreLocal(l: LocalData, b: Layer, other: Layer)
    requires ValidLocal(l)
    ensures GetTiles(Diff(l, b), true) == GetTiles(Diff(l, other), true)
    ensures Ascending(IdsOf(l.zoom, GetTiles(Diff(l, b), true)), IdRank)
    ensures forall t :: t in GetTiles(Diff(l, b), true) <==>
      ValidAt(t, l.zoom) && HasTile(l, ToLocalId(t, l.zoom))
  {
    OwnTiles(l);
  }

  /**
   * Without `modifiedOnly`, a layer yields, in ascending local id and without repeats,
   * exactly the valid tiles that some layer of its chain holds.
   */
  lemma {:induction false} AllTilesAreChainUnion(layer: Layer)
    requires ValidLayer(layer)
    ensures Ascending(IdsOf(layer.local.zoom, GetTiles(layer, false)), IdRank)
    ensures forall t :: t in GetTiles(layer, false) <==>
      ValidAt(t, layer.local.zoom) && ToLocalId(t, layer.local.zoom) in ChainTileIds(layer)
    decreases layer
  {
    match layer
    case Full(l) =>
      OwnTiles(l);
    case Diff(l, b) =>
      AllTilesAreChainUnion(b);
      var z := l.zoom;
      var own := TileIds(l.tileIndex);
      var baseIds := IdsOf(z, GetTiles(b, false));
      var merged := Merge(baseIds, own, IdRank);
      IdsOfMembers(z, GetTiles(b, false));
      MergeAscending(baseIds, own, IdRank);
      MergedIdMembers(baseIds, own);
      forall i | 0 <= i < |merged|
        ensures ValidId(merged[i], z)
      {
        assert merged[i] in merged;
      }
      TilesOfMembers(z, merged);
  }

  /** Merging two id lists keeps exactly the ids of either. */
  lemma MergedIdMembers(baseIds: seq<nat>, own: seq<nat>)
    ensures forall m :: m in Merge(baseIds, own, IdRank) <==> m in baseIds || m in own
  {
    var merged := Merge(baseIds, own, IdRank);
    MergeMembers(baseIds, own, IdRank);
    forall m | m in baseIds
      ensures m in merged
    {
      if IdRank(m) in KeySet(own, IdRank) {
        var i :| 0 <= i < |own| && IdRank(own[i]) == IdRank(m);
        assert own[i] == m;
      }
    }
  }

  /** Without `modifiedOnly`, every base tile and every local tile appears in the output. */
  lemma AllTilesCoverBaseAndLocal(l: LocalData, b: Layer)
    requires ValidLayer(Diff(l, b))
    ensures forall t :: t in GetTiles(b, false) ==> t in GetTiles(Diff(l, b), false)
    ensures forall t :: t in GetTiles(Diff(l, b), true) ==> t in GetTiles(Diff(l, b), false)
  {
    AllTilesAreChainUnion(b);
    AllTilesAreChainUnion(Diff(l, b));
    OwnTiles(l);
    forall t | t in GetTiles(Diff(l, b), true)
      ensures ToLocalId(t, l.zoom) in ChainTileIds(Diff(l, b))
    {
      assert HasTile(l, ToLocalId(t, l.zoom));
    }
  }
}

=== FILE: scans.dfy ===
/**
 * The full scan (`Get(buffer)`, and keyed `Get` with no keys): every object a layer
 * can see, in key order. As written, a diff layer merges its base's scan with its own
 * store and never looks at its object index, so an object tombstoned in the diff but
 * still stored in the base comes back. `ResolvedScan` is the scan that agrees with
 * keyed resolution; `GetAll` computes it with the two-cursor merge loop.
 */
module Scans {
  import opened Optional
  import opened Keys
  import opened Tiles
  import opened SortedMerge
  import opened Layers
  import opened Resolution
  import opened TileReads

  /** The scan as written: the base's scan merged with the local store, local winning. */
  function Scan(layer: Layer): seq<Entry>
    decreases layer
  {
    match layer
    case Full(l) => LocalScan(l)
    case Diff(l, b) => Merge(Scan(b), LocalScan(l), EntryRank)
  }

  /** The object index of `l` marks the entry's key as deleted. */
  predicate Tombstoned(l: LocalData, e: Entry) {
    KeyOf(e.geo) in l.index && l.index[KeyOf(e.geo)].Deleted?
  }

  /** The scan with every base object tombstoned in a more local layer dropped. */
  function ResolvedScan(layer: Layer): seq<Entry>
    decreases layer
  {
    match layer
    case Full(l) => LocalScan(l)
    case Diff(l, b) => Merge(Filter(ResolvedScan(b), e => !Tombstoned(l, e)), LocalScan(l), EntryRank)
  }

  /** No layer of the chain holds a tombstone. */
  ghost predicate NoTombstones(layer: Layer)
    decreases layer
  {
    (forall k :: k in layer.local.index ==> layer.local.index[k].Ptr?) &&
    (layer.Diff? ==> NoTombstones(layer.base))
  }

  lemma LocalScanAscending(l: LocalData)
    requires ValidLocal(l)
    ensures Ascending(LocalScan(l), EntryRank)
  {
    ToEntriesAscending(l.zoom, l.store);
  }

  /** The scan as written is in strictly ascending key order. */
  lemma {:induction false} ScanAscending(layer: Layer)
    requires ValidLayer(layer)
    ensures Ascending(Scan(layer), EntryRank)
    decreases layer
  {
    LocalScanAscending(layer.local);
    if layer.Diff? {
      ScanAscending(layer.base);
      MergeAscending(Scan(layer.base), LocalScan(layer.local), EntryRank);
    }
  }

  /** A local record is what its own key resolves to. */
  lemma LocalEntryResolves(layer: Layer, e: Entry)
    requires ValidLayer(layer) && e in LocalScan(layer.local)
    ensures KeyOf(e.geo) in layer.local.index && layer.local.index[KeyOf(e.geo)].Ptr?
    ensures Resolve(layer, KeyOf(e.geo)) == Some(e)
  {
    var l := layer.local;
    ToEntriesMembers(l.zoom, l.store);
    var p :| 0 <= p < |l.store| && e == ToEntry(l.zoom, l.store[p]);
  }

  /** A key the object index lacks has no record in the local store. */
  lemma AbsentKeyNotStored(l: LocalData, e: Entry)
    requires ValidLocal(l) && KeyOf(e.geo) !in l.index
    ensures EntryRank(e) !in KeySet(LocalScan(l), EntryRank)
  {
    if EntryRank(e) in KeySet(LocalScan(l), EntryRank) {
      var i :| 0 <= i < |LocalScan(l)| && EntryRank(LocalScan(l)[i]) == EntryRank(e);
      RankOrder(KeyOf(LocalScan(l)[i].geo), KeyOf(e.geo));
      assert false;
    }
  }

  /**
   * The corrected scan is strictly ascending and holds exactly the objects that keyed
   * resolution returns: an entry is scanned iff its key resolves to that entry.
   */
  lemma {:induction false} ResolvedScanMatchesResolve(layer: Layer)
    requires ValidLayer(layer)
    ensures Ascending(ResolvedScan(layer), EntryRank)
    ensures forall e :: e in ResolvedScan(layer) <==> Resolve(layer, KeyOf(e.geo)) == Some(e)
    decreases layer
  {
    var l := layer.local;
    LocalScanAscending(l);
    forall e | e in LocalScan(l)
      ensures Resolve(layer, KeyOf(e.geo)) == Some(e)
    {
      LocalEntryResolves(layer, e);
    }
    match layer
    case Full(_) =>
      forall e: Entry | Resolve(layer, KeyOf(e.geo)) == Some(e)
        ensures e in LocalScan(l)
      {
        var k := KeyOf(e.geo);
        var p := l.index[k].pointer;
        ToEntriesMembers(l.zoom, l.store);
        assert LocalScan(l)[p] == e;
      }
    case Diff(_, b) =>
      ResolvedScanMatchesResolve(b);
      var p := (e: Entry) => !Tombstoned(l, e);
      var kept := Filter(ResolvedScan(b), p);
      FilterAscending(ResolvedScan(b), p, EntryRank);
      FilterMembers(ResolvedScan(b), p);
      MergeAscending(kept, LocalScan(l), EntryRank);
      MergeMembers(kept, LocalScan(l), EntryRank);
      var m := Merge(kept, LocalScan(l), EntryRank);
      forall e | e in m
        ensures Resolve(layer, KeyOf(e.geo)) == Some(e)
      {
        var k := KeyOf(e.geo);
        if e in kept && e !in LocalScan(l) && k in l.index {
          var q := l.index[k].pointer;
          var y := ToEntry(l.zoom, l.store[q]);
          ToEntriesMembers(l.zoom, l.store);
          MergeLocalWins(kept, LocalScan(l), EntryRank, e, y);
        }
      }
      forall e: Entry | Resolve(layer, KeyOf(e.geo)) == Some(e)
        ensures e in m
      {
        var k := KeyOf(e.geo);
        if k in l.index {
          var q := l.index[k].pointer;
          ToEntriesMembers(l.zoom, l.store);
          assert LocalScan(l)[q] == e;
        } else {
          AbsentKeyNotStored(l, e);
        }
      }
  }

  lemma {:induction false} FilterKeepsAll<T>(s: seq<T>, p: T -> bool)
    requires forall x :: x in s ==> p(x)
    ensures Filter(s, p) == s
  {
    if |s| > 0 {
      var init, last := s[..|s| - 1], s[|s| - 1];
      assert s == init + [last];
      assert forall x :: x in init ==> x in s;
      FilterKeepsAll(init, p);
      assert p(last);
    }
  }

  /** Without tombstones anywhere in the chain the scan as written is already correct. */
  lemma {:induction false} ScanCorrectWithoutTombstones(layer: Layer)
    requires NoTombstones(layer)
    ensures Scan(layer) == ResolvedScan(layer)
    decreases layer
  {
    if layer.Diff? {
      ScanCorrectWithoutTombstones(layer.base);
      var l := layer.local;
      FilterKeepsAll(ResolvedScan(layer.base), (e: Entry) => !Tombstoned(l, e));
    }
  }

  /**
   * The scan as written returns a deleted object: a root storing node 1 and a diff on
   * top of it whose object index tombstones node 1 and which holds the node's tile, so
   * tile-level copy-on-write is kept. Keyed resolution and tile reads find nothing for
   * the node, yet the scan yields it.
   */
  lemma ScanReturnsTombstoned()
    ensures exists layer: Layer, e: Entry ::
      (ValidLayer(layer) && RewritesCoverTiles(layer) && Resolve(layer, KeyOf(e.geo)) == None &&
       e in Scan(layer) && e !in ResolvedScan(layer))
  {
    var g := OsmGeo(Node, 1, 1, true);
    var k := KeyOf(g);
    var root := LocalData(0, map[k := Ptr(0)], [TileHead(0, 0)], [Stored(g, [0])]);
    var diff := LocalData(0, map[k := Deleted], [TileHead(0, 0)], []);
    var layer := Diff(diff, Full(root));
    var e := ToEntry(0, Stored(g, [0]));
    assert TileIds(root.tileIndex) == [0] && TileIds(diff.tileIndex) == [0];
    assert HasTile(root, 0);
    assert ValidLocal(root);
    assert ValidLayer(layer);
    forall t, e' | e' in TileView(Full(root), t) && KeyOf(e'.geo) in diff.index
      ensures HasTileAt(layer, t)
    {
      assert HasTileAt(Full(root), t);
    }
    assert RewritesCoverTiles(layer);
    assert Scan(layer) == [e];
    ResolvedScanMatchesResolve(layer);
    assert Resolve(layer, KeyOf(e.geo)) == None;
  }
}

=== FILE: snapshot.dfy ===
/**
 * The snapshot layer's read operations as the step-by-step procedures they are: the
 * keyed read that shrinks a pending key set, the loop that splits requested tiles into
 * local and other ones, the tile read and the full scan built on the two-cursor merge,
 * and the snapshot object that looks its base up once and caches it.
 */
module Snapshot {
  import opened Optional
  import opened Keys
  import opened Tiles
  import opened SortedMerge
  import opened Layers
  import opened Resolution
  import opened Scans
  import opened TileReads

  /**
   * A diff snapshot's handle on its base: the base id from its meta data (none when the
   * meta data names no base), the factory that opens a database by id, and the cache of
   * the base once opened. `factoryRuns` counts the calls of the factory.
   */
  class OsmTiledDbSnapshot {
    const baseId: Option<int>
    const getBaseDb: int -> Layer
    var baseDb: Option<Layer>
    ghost var factoryRuns: nat

    /** The cache is empty until the factory has run once, and then holds its answer. */
    ghost predicate Valid()
      reads this
    {
      && factoryRuns <= 1
      && (baseDb.None? <==> factoryRuns == 0)
      && (baseDb.Some? ==> baseId.Some? && baseDb.value == getBaseDb(baseId.value))
    }

    constructor (baseId: Option<int>, getBaseDb: int -> Layer)
      ensures Valid()
      ensures this.baseId == baseId && this.getBaseDb == getBaseDb
      ensures baseDb == None && factoryRuns == 0
    {
      this.baseId := baseId;
      this.getBaseDb := getBaseDb;
      baseDb := None;
      factoryRuns := 0;
    }

    /**
     * `GetBaseDb`: fails when there is no base id; otherwise opens the base through the
     * factory on the first call only, and returns the cached base on every call.
     */
    method GetBaseDb() returns (r: Result<Layer, string>)
      requires Valid()
      modifies this
      ensures Valid()
      ensures baseId.None? <==> r.Failure?
      ensures baseId.None? ==> baseDb == old(baseDb) && factoryRuns == old(factoryRuns)
      ensures baseId.Some? ==> r == Success(getBaseDb(baseId.value)) && baseDb == Some(r.value)
      ensures old(baseDb).Some? ==> r == Success(old(baseDb).value) && factoryRuns == old(factoryRuns)
      ensures factoryRuns <= 1
    {
      if baseId.None? {
        return Failure("A OsmTiledDbSnapshot always needs a base db.");
      }
      if baseDb.None? {
        baseDb := Some(getBaseDb(baseId.value));
        factoryRuns := factoryRuns + 1;
      }
      r := Success(baseDb.value);
    }
  }

  /** The objects the local layer holds for the requested keys, in request order. */
  function LocalHits(l: LocalData, keys: seq<Key>): seq<Entry>
    requires ValidLocal(l)
  {
    if |keys| == 0 then []
    else
      var k := keys[|keys| - 1];
      LocalHits(l, keys[..|keys| - 1]) +
        if k in l.index && l.index[k].Ptr? then [ToEntry(l.zoom, l.store[l.index[k].pointer])] else []
  }

  /** The requested keys the local object index knows nothing about. */
  function Pending(l: LocalData, keys: seq<Key>): set<Key> {
    set k | k in keys && k !in l.index
  }

  /**
   * The local hits are exactly the objects that requested keys with a local pointer
   * resolve to.
   */
  lemma {:induction false} LocalHitsMembers(layer: Layer, keys: seq<Key>)
    requires ValidLayer(layer)
    ensures forall e :: e in LocalHits(layer.local, keys) <==>
      exists k :: k in keys && k in layer.local.index && Resolve(layer, k) == Some(e)
  {
    var l := layer.local;
    if |keys| > 0 {
      var init, k := keys[..|keys| - 1], keys[|keys| - 1];
      LocalHitsMembers(layer, init);
      assert keys == init + [k];
      forall e | exists k' :: k' in keys && k' in l.index && Resolve(layer, k') == Some(e)
        ensures e in LocalHits(l, keys)
      {
        var k' :| k' in keys && k' in l.index && Resolve(layer, k') == Some(e);
        if k' !in init {
          assert k' == k;
        }
      }
    }
  }

  /** Enumerates a key set as a sequence holding each of its keys. */
  method EnumerateSet(s: set<Key>) returns (r: seq<Key>)
    ensures forall k :: k in r <==> k in s
  {
    r := [];
    var rest := s;
    while rest != {}
      invariant rest <= s
      invariant forall k :: k in r <==> k in s && k !in rest
      decreases |rest|
    {
      var k :| k in rest;
      r := r + [k];
      rest := rest - {k};
    }
  }

  /**
   * The local pass of keyed `Get`: walks the requested keys once, collecting the objects
   * stored here and shrinking the pending set by every key that is tombstoned or found.
   */
  method LocalPass(l: LocalData, keys: seq<Key>) returns (found: seq<Entry>, keysSet: set<Key>)
    requires ValidLocal(l)
    ensures found == LocalHits(l, keys)
    ensures keysSet == Pending(l, keys)
  {
    keysSet := set k | k in keys;
    found := [];
    var i := 0;
    while i < |keys|
      invariant 0 <= i <= |keys|
      invariant found == LocalHits(l, keys[..i])
      invariant keysSet == (set k | k in keys) - (set k | k in keys[..i] && k in l.index)
    {
      var k := keys[i];
      assert keys[..i + 1] == keys[..i] + [k];
      assert keys[..i + 1][..i] == keys[..i];
      if k in l.index {
        match l.index[k]
        case Deleted =>
          keysSet := keysSet - {k};
        case Ptr(p) =>
          found := found + [ToEntry(l.zoom, l.store[p])];
          keysSet := keysSet - {KeyOf(l.store[p].geo)};
      }
      i := i + 1;
    }
    assert keys[..|keys|] == keys;
  }

  /** A key that resolves to an object is not tombstoned in the layer asked. */
  lemma ResolvedNotTombstoned(layer: Layer, k: Key)
    requires ValidLayer(layer) && Resolve(layer, k).Some?
    ensures !Tombstoned(layer.local, Resolve(layer, k).value)
  {
  }

  /**
   * With nothing pending, the local hits are everything the requested keys resolve to;
   * otherwise the local hits followed by everything the pending keys resolve to in the
   * base are.
   */
  lemma KeyedAnswer(layer: Layer, keys: seq<Key>, fromBase: seq<Entry>)
    requires ValidLayer(layer)
    requires layer.Diff? && Pending(layer.local, keys) != {} ==>
      forall e :: e in fromBase <==> exists k :: k in Pending(layer.local, keys) && Resolve(layer.base, k) == Some(e)
    ensures layer.Full? || Pending(layer.local, keys) == {} ==>
      forall e :: e in LocalHits(layer.local, keys) <==> exists k :: k in keys && Resolve(layer, k) == Some(e)
    ensures layer.Diff? && Pending(layer.local, keys) != {} ==>
      forall e :: e in LocalHits(layer.local, keys) + fromBase <==> exists k :: k in keys && Resolve(layer, k) == Some(e)
  {
    var l := layer.local;
    LocalHitsMembers(layer, keys);
    assert forall k :: k in keys && k !in l.index ==> k in Pending(l, keys);
    if layer.Full? || Pending(l, keys) == {} {
      forall e: Entry | exists k :: k in keys && Resolve(layer, k) == Some(e)
        ensures e in LocalHits(l, keys)
      {
        var k :| k in keys && Resolve(layer, k) == Some(e);
      }
    } else {
      forall e | e in fromBase
        ensures exists k :: k in keys && Resolve(layer, k) == Some(e)
      {
        var k :| k in Pending(l, keys) && Resolve(layer.base, k) == Some(e);
        assert k in keys && Resolve(layer, k) == Some(e);
      }
      forall e: Entry | exists k :: k in keys && Resolve(layer, k) == Some(e)
        ensures e in LocalHits(l, keys) + fromBase
      {
        var k :| k in keys && Resolve(layer, k) == Some(e);
        if k !in l.index {
          assert k in Pending(l, keys);
        }
      }
    }
  }

  /**
   * Keyed `Get`: the local pass, then the base asked for the keys still pending, and not
   * at all when none are; the root answers from its own store only. The answer holds
   * exactly the objects the requested keys resolve to, local hits first, and never an
   * object tombstoned here.
   */
  method GetByKeys(layer: Layer, keys: seq<Key>) returns (r: seq<Entry>, asked: Option<set<Key>>)
    requires ValidLayer(layer)
    ensures forall e :: e in r <==> exists k :: k in keys && Resolve(layer, k) == Some(e)
    ensures LocalHits(layer.local, keys) <= r
    ensures forall e :: e in r ==> !Tombstoned(layer.local, e)
    ensures asked.Some? ==> layer.Diff? && asked.value == Pending(layer.local, keys) && asked.value != {}
    ensures asked.None? ==> layer.Full? || Pending(layer.local, keys) == {}
    decreases layer
  {
    var found, keysSet := LocalPass(layer.local, keys);
    if layer.Full? || |keysSet| == 0 {
      r, asked := found, None;
      KeyedAnswer(layer, keys, []);
    } else {
      var ks := EnumerateSet(keysSet);
      var fromBase, _ := GetByKeys(layer.base, ks);
      r, asked := found + fromBase, Some(keysSet);
      KeyedAnswer(layer, keys, fromBase);
    }
    forall e | e in r
      ensures !Tombstoned(layer.local, e)
    {
      var k :| k in keys && Resolve(layer, k) == Some(e);
      ResolvedNotTombstoned(layer, k);
    }
  }

  /**
   * The partition loop of multi-tile `Get`: each requested tile is appended to the local
   * list when this layer's tile index holds it and to the other list otherwise.
   */
  method PartitionTiles(layer: Layer, tiles: seq<Tile>) returns (localTiles: seq<Tile>, otherTiles: seq<Tile>)
    ensures localTiles == LocalPart(layer, tiles) && otherTiles == OtherPart(layer, tiles)
    ensures forall t :: t in tiles ==> (t in localTiles <==> HasTileAt(layer, t))
    ensures forall t :: t in tiles ==> (t in otherTiles <==> !HasTileAt(layer, t))
    ensures |localTiles| + |otherTiles| == |tiles|
  {
    localTiles, otherTiles := [], [];
    for i := 0 to |tiles|
      invariant localTiles == LocalPart(layer, tiles[..i])
      invariant otherTiles == OtherPart(layer, tiles[..i])
    {
      assert tiles[..i + 1][..i] == tiles[..i];
      if HasTileAt(layer, tiles[i]) {
        localTiles := localTiles + [tiles[i]];
      } else {
        otherTiles := otherTiles + [tiles[i]];
      }
    }
    assert tiles[..|tiles|] == tiles;
    PartitionSplitsTiles(layer, tiles);
  }

  lemma FilterSingleton<T>(x: T, p: T -> bool)
    ensures Filter([x], p) == if p(x) then [x] else []
  {
    assert [x][..0] == [];
  }

  /** One requested tile is read wholly locally when the layer holds it, else wholly by the base. */
  lemma SingleTileQuery(l: LocalData, b: Layer, t: Tile)
    ensures HasTileAt(Diff(l, b), t) ==> TileQuery(Diff(l, b), [t]) == LocalForTiles(l, [ToLocalId(t, l.zoom)])
    ensures !HasTileAt(Diff(l, b), t) ==> TileQuery(Diff(l, b), [t]) == TileQuery(b, [t])
  {
    var layer := Diff(l, b);
    FilterSingleton(t, (t: Tile) => HasTileAt(layer, t));
    FilterSingleton(t, (t: Tile) => !HasTileAt(layer, t));
    assert IdsOf(l.zoom, [t]) == [ToLocalId(t, l.zoom)];
  }

  /**
   * `Get(tiles)`: a single tile goes wholly to the local store or wholly to the base;
   * several tiles are partitioned, and the base is asked (for the other tiles only)
   * unless every tile is local. The answer is the tile query, strictly ascending by key.
   */
  method GetByTiles(layer: Layer, tiles: seq<Tile>) returns (r: seq<Entry>, asked: Option<seq<Tile>>)
    requires ValidLayer(layer)
    ensures r == TileQuery(layer, tiles)
    ensures Ascending(r, EntryRank)
    ensures asked.Some? ==> layer.Diff? && asked.value == OtherPart(layer, tiles)
    ensures asked.None? <==>
      layer.Full? || (|LocalPart(layer, tiles)| > 0 && |OtherPart(layer, tiles)| == 0)
    decreases layer
  {
    TileQueryAscending(layer, tiles);
    var l := layer.local;
    if layer.Full? {
      return LocalForTiles(l, IdsOf(l.zoom, tiles)), None;
    }
    var b := layer.base;
    if |tiles| == 1 {
      var only := tiles[0];
      assert tiles == [only];
      SingleTileQuery(l, b, only);
      assert IdsOf(l.zoom, tiles) == [ToLocalId(only, l.zoom)];
      FilterSingleton(only, (t: Tile) => HasTileAt(layer, t));
      FilterSingleton(only, (t: Tile) => !HasTileAt(layer, t));
      if HasTileAt(layer, only) {
        r, asked := LocalForTiles(l, IdsOf(l.zoom, tiles)), None;
      } else {
        var fromBase, _ := GetByTiles(b, tiles);
        r := fromBase;
        asked := Some(tiles);
      }
      return;
    }
    var localTiles, otherTiles := PartitionTiles(layer, tiles);
    if |localTiles| == 0 {
      var fromBase, _ := GetByTiles(b, otherTiles);
      r, asked := fromBase, Some(otherTiles);
      return;
    }
    if |otherTiles| == 0 {
      r, asked := LocalForTiles(l, IdsOf(l.zoom, tiles)), None;
      return;
    }
    var fromBase, _ := GetByTiles(b, otherTiles);
    r := MergeLoop(fromBase, LocalForTiles(l, IdsOf(l.zoom, tiles)), EntryRank);
    asked := Some(otherTiles);
  }

  /**
   * The full scan with tombstones honoured: the base's scan, less the objects this layer
   * tombstones, merged with the local store by the two-cursor loop. It returns, in
   * ascending key order, exactly the objects keyed resolution returns.
   */
  method GetAll(layer: Layer) returns (r: seq<Entry>)
    requires ValidLayer(layer)
    ensures r == ResolvedScan(layer)
    ensures Ascending(r, EntryRank)
    ensures forall e :: e in r <==> Resolve(layer, KeyOf(e.geo)) == Some(e)
    decreases layer
  {
    ResolvedScanMatchesResolve(layer);
    match layer
    case Full(l) =>
      r := LocalScan(l);
    case Diff(l, b) =>
      var below := GetAll(b);
      r := MergeLoop(Filter(below, (e: Entry) => !Tombstoned(l, e)), LocalScan(l), EntryRank);
  }
}

=== FILE: snapshot_full.dfy ===
/**
 * The root (full) layer's overrides. A full snapshot holds all of its data locally:
 * every read is answered from its own object index, tiles and store, and no base is
 * ever consulted, so none of these functions takes one.
 */
module SnapshotDbFull {
  import opened Optional
  import opened Keys
  import opened Tiles
  import opened SortedMerge
  import opened Layers
  import opened Resolution
  import opened TileReads

  /** `Get(type, id)`: the locally stored object with that type and id, if any. */
  function Get(l: LocalData, kind: OsmGeoType, id: Int64): (r: Option<OsmGeo>)
    requires ValidLocal(l)
    ensures r.Some? ==> r.value.kind == kind && r.value.id == id
  {
    var k := Key(kind, id);
    if k in l.index && l.index[k].Ptr? then Some(l.store[l.index[k].pointer].geo) else None
  }

  /** The root's keyed read is keyed resolution on the root alone. */
  lemma GetMatchesResolve(l: LocalData, k: Key)
    requires ValidLocal(l)
    ensures Get(l, k.kind, k.id) == match Resolve(Full(l), k) case Some(e) => Some(e.geo) case None => None
  {
  }

  /** Keeps the objects of one type. */
  function OfKind(es: seq<Entry>, kind: OsmGeoType): seq<OsmGeo> {
    var hit := Filter(es, (e: Entry) => e.geo.kind == kind);
    seq(|hit|, i requires 0 <= i < |hit| => hit[i].geo)
  }

  /** `GetTile(tile, type)`: the objects of that type the local store holds for the tile. */
  function GetTile(l: LocalData, t: Tile, kind: OsmGeoType): seq<OsmGeo> {
    OfKind(LocalForTiles(l, [ToLocalId(t, l.zoom)]), kind)
  }

  /**
   * The root's tile read returns exactly the stored objects of the requested type that
   * belong to the tile, and it is the root's own view of that tile.
   */
  lemma GetTileMembers(l: LocalData, t: Tile, kind: OsmGeoType)
    requires ValidLocal(l)
    ensures forall g :: g in GetTile(l, t, kind) <==>
      g.kind == kind &&
      exists p :: 0 <= p < |l.store| && l.store[p].geo == g && ToLocalId(t, l.zoom) in l.store[p].tileIds
    ensures GetTile(l, t, kind) == OfKind(TileView(Full(l), t), kind)
  {
    var id := ToLocalId(t, l.zoom);
    var es := LocalForTiles(l, [id]);
    var p := (e: Entry) => e.geo.kind == kind;
    var hit := Filter(es, p);
    LocalForTilesMembers(l, [id]);
    FilterMembers(es, p);
    var r := GetTile(l, t, kind);
    forall g | g in r
      ensures g.kind == kind &&
        exists q :: 0 <= q < |l.store| && l.store[q].geo == g && id in l.store[q].tileIds
    {
      var i :| 0 <= i < |r| && r[i] == g;
      assert hit[i] in hit;
      var q :| 0 <= q < |l.store| && Touches(l.store[q], [id]) && hit[i] == ToEntry(l.zoom, l.store[q]);
    }
    forall g: OsmGeo | g.kind == kind &&
        exists q :: 0 <= q < |l.store| && l.store[q].geo == g && id in l.store[q].tileIds
      ensures g in r
    {
      var q :| 0 <= q < |l.store| && l.store[q].geo == g && id in l.store[q].tileIds;
      assert Touches(l.store[q], [id]);
      var e := ToEntry(l.zoom, l.store[q]);
      assert e in hit;
      var i :| 0 <= i < |hit| && hit[i] == e;
      assert r[i] == g;
    }
    if !HasTileAt(Full(l), t) {
      NoLocalTileNoRead(l, [id]);
    }
  }

  /** `GetChangedTiles`: a full snapshot has changed no tiles. */
  function GetChangedTiles(l: LocalData): (r: seq<Tile>)
    ensures |r| == 0
  {
    []
  }

  /** The ids of the locally stored objects of one type that belong to a tile. */
  function IdsOfKindIn(ss: seq<Stored>, id: nat, kind: OsmGeoType): seq<Int64> {
    var hit := Filter(ss, (s: Stored) => s.geo.kind == kind && id in s.tileIds);
    seq(|hit|, i requires 0 <= i < |hit| => hit[i].geo.id)
  }

  /**
   * `GetSortedIndexData(tile, type)`: the layer's own index of the tile for that type, the
   * ids of the stored objects of that type belonging to the tile.
   */
  function GetSortedIndexData(l: LocalData, t: Tile, kind: OsmGeoType): seq<Int64> {
    IdsOfKindIn(l.store, ToLocalId(t, l.zoom), kind)
  }

  /** The index data is strictly ascending. */
  lemma GetSortedIndexDataSorted(l: LocalData, t: Tile, kind: OsmGeoType)
    requires ValidLocal(l)
    ensures forall i, j :: 0 <= i < j < |GetSortedIndexData(l, t, kind)| ==>
      GetSortedIndexData(l, t, kind)[i] < GetSortedIndexData(l, t, kind)[j]
  {
    var id := ToLocalId(t, l.zoom);
    var p := (s: Stored) => s.geo.kind == kind && id in s.tileIds;
    var hit := Filter(l.store, p);
    FilterMembers(l.store, p);
    FilterAscending(l.store, p, StoredRank);
    var r := GetSortedIndexData(l, t, kind);
    forall i, j | 0 <= i < j < |r|
      ensures r[i] < r[j]
    {
      assert hit[i] in hit && hit[j] in hit;
      assert hit[i].geo.kind == kind && hit[j].geo.kind == kind;
      assert StoredRank(hit[i]) < StoredRank(hit[j]);
      RankOrder(KeyOf(hit[i].geo), KeyOf(hit[j].geo));
    }
  }

  /** The index data holds an id exactly when an object of that type and id is stored in the tile. */
  lemma GetSortedIndexDataMembers(l: LocalData, t: Tile, kind: OsmGeoType)
    ensures forall n :: n in GetSortedIndexData(l, t, kind) <==>
      exists p :: (0 <= p < |l.store| && l.store[p].geo.kind == kind && l.store[p].geo.id == n &&
        ToLocalId(t, l.zoom) in l.store[p].tileIds)
  {
    var id := ToLocalId(t, l.zoom);
    var p := (s: Stored) => s.geo.kind == kind && id in s.tileIds;
    var hit := Filter(l.store, p);
    FilterMembers(l.store, p);
    var r := GetSortedIndexData(l, t, kind);
    forall n | n in r
      ensures exists q :: (0 <= q < |l.store| && l.store[q].geo.kind == kind && l.store[q].geo.id == n &&
        id in l.store[q].tileIds)
    {
      var i :| 0 <= i < |r| && r[i] == n;
      assert hit[i] in hit;
      var q :| 0 <= q < |l.store| && l.store[q] == hit[i];
    }
    forall n | exists q :: (0 <= q < |l.store| && l.store[q].geo.kind == kind && l.store[q].geo.id == n &&
        id in l.store[q].tileIds)
      ensures n in r
    {
      var q :| 0 <= q < |l.store| && l.store[q].geo.kind == kind && l.store[q].geo.id == n &&
        id in l.store[q].tileIds;
      assert l.store[q] in hit;
      var i :| 0 <= i < |hit| && hit[i] == l.store[q];
      assert r[i] == n;
    }
  }

  /**
   * `GetLatestNonDiff`: a full layer is its own latest non-diff layer. Only the full
   * layer defines it; the `Diff` case, which walks down to the root, is an extension of
   * this model, where the root is the only layer that is not a diff.
   */
  function GetLatestNonDiff(layer: Layer): (r: Layer)
    ensures r.Full?
    ensures layer.Full? ==> r == layer
    ensures r == Chain(layer)[|Chain(layer)| - 1]
    decreases layer
  {
    match layer
    case Full(_) => layer
    case Diff(_, b) => GetLatestNonDiff(b)
  }
}

=== FILE: tile_reads.dfy ===
/**
 * Reads by tile (`Get(tiles)`): the requested tiles are split into those this layer's
 * tile index holds and the others; local tiles are read from the local store, the
 * others are asked of the base, and the two answers are merged by key with the local
 * object winning. A tile's content is taken from the nearest layer that holds the tile.
 */
module TileReads {
  import opened Optional
  import opened Keys
  import opened Tiles
  import opened SortedMerge
  import opened Layers
  import opened Resolution

  /** `LowestPointersFor`: the heads of the requested tiles that the tile index holds. */
  function LowestPointersFor(l: LocalData, ids: seq<nat>): seq<nat> {
    var heads := Filter(l.tileIndex, (h: TileHead) => h.tileId in ids);
    seq(|heads|, i requires 0 <= i < |heads| => heads[i].pointer)
  }

  /** A stored record belongs to at least one of the requested tiles. */
  predicate Touches(s: Stored, ids: seq<nat>) {
    exists id :: id in s.tileIds && id in ids
  }

  /**
   * `GetLocal(tiles)`: nothing when no requested tile has a head in the tile index,
   * otherwise every record of the local store touching a requested tile, in key order.
   */
  function LocalForTiles(l: LocalData, ids: seq<nat>): seq<Entry> {
    if |LowestPointersFor(l, ids)| == 0 then []
    else ToEntries(l.zoom, Filter(l.store, (s: Stored) => Touches(s, ids)))
  }

  /** The requested tiles this layer's tile index holds, in request order. */
  function LocalPart(layer: Layer, tiles: seq<Tile>): seq<Tile> {
    Filter(tiles, (t: Tile) => HasTileAt(layer, t))
  }

  /** The requested tiles this layer's tile index lacks, in request order. */
  function OtherPart(layer: Layer, tiles: seq<Tile>): seq<Tile> {
    Filter(tiles, (t: Tile) => !HasTileAt(layer, t))
  }

  /**
   * The content of one tile as seen from a layer: the records, in the nearest layer of
   * the chain that holds the tile, that belong to the tile. Nothing when no layer does.
   */
  function TileView(layer: Layer, t: Tile): seq<Entry> {
    match DbForTile(layer, t)
    case None => []
    case Some(owner) => LocalForTiles(owner.local, [ToLocalId(t, owner.local.zoom)])
  }

  /**
   * `Get(tiles)`: with no local tile only the base is asked, for the other tiles; with
   * no other tile only the local store is read; otherwise the base's answer for the
   * other tiles is merged with the local answer. The root reads its own store.
   */
  function TileQuery(layer: Layer, tiles: seq<Tile>): seq<Entry>
    decreases layer
  {
    var l := layer.local;
    match layer
    case Full(_) => LocalForTiles(l, IdsOf(l.zoom, tiles))
    case Diff(_, b) =>
      var local, other := LocalPart(layer, tiles), OtherPart(layer, tiles);
      if |local| == 0 then TileQuery(b, other)
      else if |other| == 0 then LocalForTiles(l, IdsOf(l.zoom, tiles))
      else Merge(TileQuery(b, other), LocalForTiles(l, IdsOf(l.zoom, tiles)), EntryRank)
  }

  lemma {:induction false} FilterSplit<T>(s: seq<T>, p: T -> bool, q: T -> bool)
    requires forall x :: q(x) == !p(x)
    ensures |Filter(s, p)| + |Filter(s, q)| == |s|
  {
    if |s| > 0 {
      FilterSplit(s[..|s| - 1], p, q);
    }
  }

  /**
   * Every requested tile lands in exactly one part: the local part when the tile index
   * holds it, the other part when it does not; no tile is lost or repeated.
   */
  lemma PartitionSplitsTiles(layer: Layer, tiles: seq<Tile>)
    ensures forall t :: t in LocalPart(layer, tiles) <==> t in tiles && HasTileAt(layer, t)
    ensures forall t :: t in OtherPart(layer, tiles) <==> t in tiles && !HasTileAt(layer, t)
    ensures |LocalPart(layer, tiles)| + |OtherPart(layer, tiles)| == |tiles|
  {
    FilterMembers(tiles, (t: Tile) => HasTileAt(layer, t));
    FilterMembers(tiles, (t: Tile) => !HasTileAt(layer, t));
    FilterSplit(tiles, (t: Tile) => HasTileAt(layer, t), (t: Tile) => !HasTileAt(layer, t));
  }

  /**
   * What the local read returns: exactly the records of the local store that belong to
   * a requested tile (the guard on the tile index loses nothing, since every record's
   * tiles are in the tile index), in ascending key order.
   */
  lemma LocalForTilesMembers(l: LocalData, ids: seq<nat>)
    requires ValidLocal(l)
    ensures Ascending(LocalForTiles(l, ids), EntryRank)
    ensures forall e :: e in LocalForTiles(l, ids) <==>
      exists p :: 0 <= p < |l.store| && Touches(l.store[p], ids) && e == ToEntry(l.zoom, l.store[p])
  {
    var touching := (s: Stored) => Touches(s, ids);
    var hit := Filter(l.store, touching);
    FilterMembers(l.store, touching);
    FilterAscending(l.store, touching, StoredRank);
    ToEntriesAscending(l.zoom, hit);
    ToEntriesMembers(l.zoom, hit);
    if |LowestPointersFor(l, ids)| == 0 {
      forall p | 0 <= p < |l.store|
        ensures !Touches(l.store[p], ids)
      {
        if Touches(l.store[p], ids) {
          var id :| id in l.store[p].tileIds && id in ids;
          HeadsNonEmpty(l, ids, id);
          assert false;
        }
      }
    } else {
      forall e | e in LocalForTiles(l, ids)
        ensures exists p :: 0 <= p < |l.store| && Touches(l.store[p], ids) && e == ToEntry(l.zoom, l.store[p])
      {
        var q :| 0 <= q < |hit| && e == ToEntry(l.zoom, hit[q]);
        assert hit[q] in hit;
        var p :| 0 <= p < |l.store| && l.store[p] == hit[q];
      }
      forall e | (exists p :: 0 <= p < |l.store| && Touches(l.store[p], ids) && e == ToEntry(l.zoom, l.store[p]))
        ensures e in LocalForTiles(l, ids)
      {
        var p :| 0 <= p < |l.store| && Touches(l.store[p], ids) && e == ToEntry(l.zoom, l.store[p]);
        assert l.store[p] in hit;
      }
    }
  }

  /** A requested tile that the tile index holds has a head among the lowest pointers. */
  lemma HeadsNonEmpty(l: LocalData, ids: seq<nat>, id: nat)
    requires HasTile(l, id) && id in ids
    ensures |LowestPointersFor(l, ids)| > 0
  {
    var inIds := (h: TileHead) => h.tileId in ids;
    FilterMembers(l.tileIndex, inIds);
    var i :| 0 <= i < |l.tileIndex| && l.tileIndex[i].tileId == id;
    assert l.tileIndex[i] in Filter(l.tileIndex, inIds);
  }

  /** When the tile index holds none of the requested tiles the local read is empty. */
  lemma NoLocalTileNoRead(l: LocalData, ids: seq<nat>)
    requires forall id :: id in ids ==> !HasTile(l, id)
    ensures LocalForTiles(l, ids) == []
  {
    var inIds := (h: TileHead) => h.tileId in ids;
    forall h | h in l.tileIndex
      ensures !inIds(h)
    {
      var i :| 0 <= i < |l.tileIndex| && l.tileIndex[i] == h;
      assert TileIds(l.tileIndex)[i] == h.tileId;
    }
    FilterNone(l.tileIndex, inIds);
  }

  /** Requesting more tiles never drops a record from the local read. */
  lemma LocalForTilesMonotone(l: LocalData, ids: seq<nat>, more: seq<nat>)
    requires ValidLocal(l)
    requires forall id :: id in ids ==> id in more
    ensures forall e :: e in LocalForTiles(l, ids) ==> e in LocalForTiles(l, more)
  {
    LocalForTilesMembers(l, ids);
    LocalForTilesMembers(l, more);
  }

  /** Reads of a tile a diff lacks are answered exactly as its base answers them. */
  lemma BaseTileView(l: LocalData, b: Layer, t: Tile)
    requires !HasTileAt(Diff(l, b), t)
    ensures TileView(Diff(l, b), t) == TileView(b, t)
  {
  }

  /** A record of the local read lies in one requested tile that the layer holds. */
  lemma LocalHitHasTile(layer: Layer, tiles: seq<Tile>, e: Entry)
    requires ValidLayer(layer)
    requires e in LocalForTiles(layer.local, IdsOf(layer.local.zoom, tiles))
    ensures exists t :: t in tiles && HasTileAt(layer, t) && e in TileView(layer, t)
  {
    var l := layer.local;
    var ids := IdsOf(l.zoom, tiles);
    LocalForTilesMembers(l, ids);
    var p :| 0 <= p < |l.store| && Touches(l.store[p], ids) && e == ToEntry(l.zoom, l.store[p]);
    var id :| id in l.store[p].tileIds && id in ids;
    var i :| 0 <= i < |ids| && ids[i] == id;
    var t := tiles[i];
    assert HasTileAt(layer, t);
    LocalForTilesMembers(l, [id]);
    assert Touches(l.store[p], [id]);
    assert e in TileView(layer, t);
  }

  /** Every record of the local read lies in the view of a requested tile. */
  lemma LocalReadSound(layer: Layer, tiles: seq<Tile>)
    requires ValidLayer(layer)
    ensures forall e :: e in LocalForTiles(layer.local, IdsOf(layer.local.zoom, tiles)) ==>
      exists t :: t in tiles && e in TileView(layer, t)
  {
    forall e | e in LocalForTiles(layer.local, IdsOf(layer.local.zoom, tiles))
      ensures exists t :: t in tiles && e in TileView(layer, t)
    {
      LocalHitHasTile(layer, tiles, e);
    }
  }

  /** The view of a requested tile that the layer holds is part of the local read. */
  lemma LocalReadComplete(layer: Layer, tiles: seq<Tile>)
    requires ValidLayer(layer)
    ensures forall t, e :: t in tiles && HasTileAt(layer, t) && e in TileView(layer, t) ==>
      e in LocalForTiles(layer.local, IdsOf(layer.local.zoom, tiles))
  {
    var l := layer.local;
    var ids := IdsOf(l.zoom, tiles);
    forall t, e | t in tiles && HasTileAt(layer, t) && e in TileView(layer, t)
      ensures e in LocalForTiles(l, ids)
    {
      var i :| 0 <= i < |tiles| && tiles[i] == t;
      assert ids[i] == ToLocalId(t, l.zoom);
      LocalForTilesMonotone(l, [ToLocalId(t, l.zoom)], ids);
    }
  }

  /** The answer of `Get(tiles)` is strictly ascending by key. */
  lemma {:induction false} TileQueryAscending(layer: Layer, tiles: seq<Tile>)
    requires ValidLayer(layer)
    ensures Ascending(TileQuery(layer, tiles), EntryRank)
    decreases layer
  {
    var l := layer.local;
    LocalForTilesMembers(l, IdsOf(l.zoom, tiles));
    if layer.Diff? {
      var other := OtherPart(layer, tiles);
      TileQueryAscending(layer.base, other);
      MergeAscending(TileQuery(layer.base, other), LocalForTiles(l, IdsOf(l.zoom, tiles)), EntryRank);
    }
  }

  /** Every object `Get(tiles)` returns belongs to the view of some requested tile. */
  lemma {:induction false} TileQuerySound(layer: Layer, tiles: seq<Tile>)
    requires ValidLayer(layer)
    ensures forall e :: e in TileQuery(layer, tiles) ==> exists t :: t in tiles && e in TileView(layer, t)
    decreases layer
  {
    LocalReadSound(layer, tiles);
    if layer.Diff? {
      var l, b := layer.local, layer.base;
      var other := OtherPart(layer, tiles);
      var here := LocalForTiles(l, IdsOf(l.zoom, tiles));
      var below := TileQuery(b, other);
      PartitionSplitsTiles(layer, tiles);
      TileQuerySound(b, other);
      forall e | e in below
        ensures exists t :: t in tiles && e in TileView(layer, t)
      {
        var t :| t in other && e in TileView(b, t);
        BaseTileView(l, b, t);
      }
      MergeMembers(below, here, EntryRank);
    }
  }

  /** Every object in the view of a requested tile has its key in the answer of `Get(tiles)`. */
  lemma {:induction false} TileQueryComplete(layer: Layer, tiles: seq<Tile>)
    requires ValidLayer(layer)
    ensures forall t, e :: t in tiles && e in TileView(layer, t) ==>
      EntryRank(e) in KeySet(TileQuery(layer, tiles), EntryRank)
    decreases layer
  {
    var l := layer.local;
    var here := LocalForTiles(l, IdsOf(l.zoom, tiles));
    LocalReadComplete(layer, tiles);
    assert forall t, e :: t in tiles && HasTileAt(layer, t) && e in TileView(layer, t) ==>
      EntryRank(e) in KeySet(here, EntryRank) by {
      forall t, e | t in tiles && HasTileAt(layer, t) && e in TileView(layer, t)
        ensures EntryRank(e) in KeySet(here, EntryRank)
      {
        assert e in here;
        var i :| 0 <= i < |here| && here[i] == e;
      }
    }
    if layer.Diff? {
      var b := layer.base;
      var local, other := LocalPart(layer, tiles), OtherPart(layer, tiles);
      PartitionSplitsTiles(layer, tiles);
      TileQueryComplete(b, other);
      var below := TileQuery(b, other);
      forall t, e | t in tiles && !HasTileAt(layer, t) && e in TileView(layer, t)
        ensures EntryRank(e) in KeySet(below, EntryRank)
      {
        BaseTileView(l, b, t);
      }
      if |local| > 0 && |other| > 0 {
        MergeKeys(below, here, EntryRank);
      } else if |local| == 0 {
        assert forall t :: t in tiles ==> !HasTileAt(layer, t) by {
          forall t | t in tiles ensures !HasTileAt(layer, t) {
            assert t !in local;
          }
        }
      } else {
        assert forall t :: t in tiles ==> HasTileAt(layer, t) by {
          forall t | t in tiles ensures HasTileAt(layer, t) {
            assert t !in other;
          }
        }
      }
    }
  }

  /**
   * Tile-level copy-on-write, as the diff builder is expected to keep it: a diff that
   * has any index entry for a key (a new version or a deletion) also holds every tile in
   * whose view from its base an object with that key lies.
   */
  ghost predicate RewritesCoverTiles(layer: Layer)
    decreases layer
  {
    match layer
    case Full(_) => true
    case Diff(l, b) =>
      RewritesCoverTiles(b) &&
      forall t, e :: e in TileView(b, t) && KeyOf(e.geo) in l.index ==> HasTileAt(layer, t)
  }

  /** Every record of a local read is what its own key resolves to. */
  lemma LocalReadResolves(layer: Layer, ids: seq<nat>)
    requires ValidLayer(layer)
    ensures forall e :: e in LocalForTiles(layer.local, ids) ==>
      KeyOf(e.geo) in layer.local.index && Resolve(layer, KeyOf(e.geo)) == Some(e)
  {
    var l := layer.local;
    LocalForTilesMembers(l, ids);
    forall e | e in LocalForTiles(l, ids)
      ensures KeyOf(e.geo) in l.index && Resolve(layer, KeyOf(e.geo)) == Some(e)
    {
      var p :| 0 <= p < |l.store| && Touches(l.store[p], ids) && e == ToEntry(l.zoom, l.store[p]);
      assert l.index[KeyOf(l.store[p].geo)] == Ptr(p);
    }
  }

  /**
   * Under tile-level copy-on-write, `Get(tiles)` agrees with keyed reads: every object
   * it returns is what its key resolves to, so no deleted or superseded version is
   * returned.
   */
  lemma {:induction false} TileQueryResolves(layer: Layer, tiles: seq<Tile>)
    requires ValidLayer(layer) && RewritesCoverTiles(layer)
    ensures forall e :: e in TileQuery(layer, tiles) ==> Resolve(layer, KeyOf(e.geo)) == Some(e)
    decreases layer
  {
    var l := layer.local;
    var here := LocalForTiles(l, IdsOf(l.zoom, tiles));
    LocalReadResolves(layer, IdsOf(l.zoom, tiles));
    if layer.Diff? {
      var b := layer.base;
      var other := OtherPart(layer, tiles);
      var below := TileQuery(b, other);
      PartitionSplitsTiles(layer, tiles);
      TileQueryResolves(b, other);
      TileQuerySound(b, other);
      forall e | e in below
        ensures Resolve(layer, KeyOf(e.geo)) == Some(e)
      {
        var t :| t in other && e in TileView(b, t);
        assert !HasTileAt(layer, t);
        assert KeyOf(e.geo) !in l.index;
      }
      MergeMembers(below, here, EntryRank);
    }
  }

  /**
   * Whole-tile copy-on-write, as the diff builder is expected to keep it: a diff that
   * holds a tile has an index entry (a new version or a deletion) for every object its
   * base shows in that tile, so no unchanged object of a held tile stays behind in the
   * base, where a read of that tile would no longer look.
   */
  ghost predicate CopiesWholeTiles(layer: Layer)
    decreases layer
  {
    match layer
    case Full(_) => true
    case Diff(l, b) =>
      CopiesWholeTiles(b) &&
      forall t, e :: HasTileAt(layer, t) && e in TileView(b, t) ==> KeyOf(e.geo) in l.index
  }

  /** A stored record lies in the view, from its own layer, of each of its tiles. */
  lemma OwnRecordInView(layer: Layer, p: nat, t: Tile)
    requires ValidLocal(layer.local) && p < |layer.local.store|
    requires t in ToEntry(layer.local.zoom, layer.local.store[p]).tiles
    ensures HasTileAt(layer, t)
    ensures ToEntry(layer.local.zoom, layer.local.store[p]) in TileView(layer, t)
  {
    var l := layer.local;
    var ids := l.store[p].tileIds;
    var i :| 0 <= i < |ids| && TilesOf(l.zoom, ids)[i] == t;
    var id := ids[i];
    assert HasTile(l, id);
    var j :| 0 <= j < |l.tileIndex| && l.tileIndex[j].tileId == id;
    ToFromLocalId(id, l.zoom);
    StoredRecordRead(l, p, [ToLocalId(t, l.zoom)], id);
  }

  /**
   * Under whole-tile copy-on-write, the object a key resolves to lies in the view of
   * each of its tiles: the nearest layer holding such a tile is at or above the layer
   * that stores the object, and every layer in between has an entry for the key.
   */
  lemma {:induction false} ResolvedInView(layer: Layer, k: Key, t: Tile)
    requires ValidLayer(layer) && CopiesWholeTiles(layer)
    requires Resolve(layer, k).Some? && t in Resolve(layer, k).value.tiles
    ensures Resolve(layer, k).value in TileView(layer, t)
    decreases layer
  {
    var l := layer.local;
    if k in l.index {
      OwnRecordInView(layer, l.index[k].pointer, t);
    } else {
      var b := layer.base;
      ResolvedInView(b, k, t);
      assert !HasTileAt(layer, t);
      BaseTileView(l, b, t);
    }
  }

  /**
   * Under copy-on-write of rewritten and of whole tiles, `Get(tiles)` is complete against
   * keyed reads: an object a key resolves to that lies in a requested tile is returned,
   * in that version. With `TileQueryResolves` this ties tile reads to keyed reads both
   * ways.
   */
  lemma TileQueryReturnsResolved(layer: Layer, tiles: seq<Tile>, k: Key, t: Tile)
    requires ValidLayer(layer) && RewritesCoverTiles(layer) && CopiesWholeTiles(layer)
    requires Resolve(layer, k).Some? && t in tiles && t in Resolve(layer, k).value.tiles
    ensures Resolve(layer, k).value in TileQuery(layer, tiles)
  {
    var e := Resolve(layer, k).value;
    var q := TileQuery(layer, tiles);
    ResolvedInView(layer, k, t);
    TileQueryComplete(layer, tiles);
    TileQueryResolves(layer, tiles);
    assert EntryRank(e) in KeySet(q, EntryRank);
    var i :| 0 <= i < |q| && EntryRank(q[i]) == EntryRank(e);
    RankOrder(KeyOf(q[i].geo), k);
    assert Resolve(layer, KeyOf(q[i].geo)) == Some(q[i]);
  }

  /** A stored record that belongs to a requested tile is part of the local read. */
  lemma StoredRecordRead(l: LocalData, p: nat, ids: seq<nat>, id: nat)
    requires ValidLocal(l) && p < |l.store| && id in l.store[p].tileIds && id in ids
    ensures ToEntry(l.zoom, l.store[p]) in LocalForTiles(l, ids)
  {
    LocalForTilesMembers(l, ids);
    assert Touches(l.store[p], ids);
  }

  /** A diff that lacks a tile passes a read of that tile alone to its base. */
  lemma UnheldTileReadsBase(layer: Layer, t: Tile)
    requires layer.Diff? && !HasTileAt(layer, t)
    ensures TileQuery(layer, [t]) == TileQuery(layer.base, [t])
  {
    PartitionSplitsTiles(layer, [t]);
    assert |LocalPart(layer, [t])| == 0;
    assert |OtherPart(layer, [t])| == 1;
    assert OtherPart(layer, [t])[0] in OtherPart(layer, [t]);
    assert OtherPart(layer, [t]) == [t];
  }

  /** Node 1, the object of the witnesses below. */
  const NodeOne: OsmGeo := OsmGeo(Node, 1, 1, true)

  /** A root at zoom 0 storing node 1 in its only tile, (0, 0). */
  const NodeOneRoot: LocalData :=
    LocalData(0, map[KeyOf(NodeOne) := Ptr(0)], [TileHead(0, 0)], [Stored(NodeOne, [0])])

  /** A diff over `NodeOneRoot` that deletes node 1; it holds tile (0, 0) when `holdsTile`. */
  function NodeOneDeleted(holdsTile: bool): Layer {
    var tiles := if holdsTile then [TileHead(0, 0)] else [];
    Diff(LocalData(0, map[KeyOf(NodeOne) := Deleted], tiles, []), Full(NodeOneRoot))
  }

  /** The deleting diff is a valid layer that holds tile (0, 0) as chosen; node 1 is gone. */
  lemma NodeOneDeletedValid(holdsTile: bool)
    ensures ValidLocal(NodeOneRoot)
    ensures ValidLayer(NodeOneDeleted(holdsTile))
    ensures HasTileAt(Full(NodeOneRoot), Tile(0, 0))
    ensures HasTileAt(NodeOneDeleted(holdsTile), Tile(0, 0)) == holdsTile
    ensures Resolve(NodeOneDeleted(holdsTile), KeyOf(NodeOne)) == None
  {
    assert TileIds(NodeOneRoot.tileIndex) == [0];
    assert TileIds(NodeOneDeleted(holdsTile).local.tileIndex) == if holdsTile then [0] else [];
  }

  /** Node 1 is in the root's view of tile (0, 0) and in the root's read of it. */
  lemma NodeOneInRootTile()
    ensures ToEntry(0, Stored(NodeOne, [0])) in TileView(Full(NodeOneRoot), Tile(0, 0))
    ensures ToEntry(0, Stored(NodeOne, [0])) in TileQuery(Full(NodeOneRoot), [Tile(0, 0)])
  {
    NodeOneDeletedValid(false);
    assert IdsOf(0, [Tile(0, 0)]) == [0];
    StoredRecordRead(NodeOneRoot, 0, [0], 0);
  }

  /** The diff that deletes node 1 without holding its tile breaks copy-on-write. */
  lemma NodeOneDeletedWithoutTile()
    ensures !RewritesCoverTiles(NodeOneDeleted(false))
  {
    NodeOneDeletedValid(false);
    NodeOneInRootTile();
    var e := ToEntry(0, Stored(NodeOne, [0]));
    assert KeyOf(e.geo) in NodeOneDeleted(false).local.index;
  }

  /**
   * Without copy-on-write the tile read returns a deleted object: a root storing node 1
   * in tile (0, 0) and a diff on top that deletes node 1 but does not hold the tile.
   */
  lemma TileQueryNeedsCopyOnWrite()
    ensures ValidLayer(NodeOneDeleted(false)) && !RewritesCoverTiles(NodeOneDeleted(false))
    ensures ToEntry(0, Stored(NodeOne, [0])) in TileQuery(NodeOneDeleted(false), [Tile(0, 0)])
    ensures Resolve(NodeOneDeleted(false), KeyOf(NodeOne)) == None
  {
    NodeOneDeletedValid(false);
    UnheldTileReadsBase(NodeOneDeleted(false), Tile(0, 0));
    NodeOneInRootTile();
    NodeOneDeletedWithoutTile();
  }

  /** Node 2, and version 2 of node 1. */
  const NodeTwo: OsmGeo := OsmGeo(Node, 2, 1, true)
  const NodeOneV2: OsmGeo := OsmGeo(Node, 1, 2, true)

  /** A root at zoom 0 storing nodes 1 and 2 in its only tile, (0, 0). */
  const TwoNodeRoot: LocalData :=
    LocalData(0, map[KeyOf(NodeOne) := Ptr(0), KeyOf(NodeTwo) := Ptr(1)], [TileHead(0, 0)],
      [Stored(NodeOne, [0]), Stored(NodeTwo, [0])])

  /** A diff over `TwoNodeRoot` that rewrites node 1 in tile (0, 0) but does not copy node 2. */
  const NodeOneRewritten: Layer :=
    Diff(LocalData(0, map[KeyOf(NodeOne) := Ptr(0)], [TileHead(0, 0)], [Stored(NodeOneV2, [0])]),
      Full(TwoNodeRoot))

  /**
   * The rewriting diff is valid and keeps copy-on-write of rewritten objects; node 2
   * resolves to the root's record, which lies in tile (0, 0).
   */
  lemma NodeOneRewrittenValid()
    ensures ValidLayer(NodeOneRewritten) && RewritesCoverTiles(NodeOneRewritten)
    ensures Resolve(NodeOneRewritten, KeyOf(NodeTwo)) == Some(ToEntry(0, Stored(NodeTwo, [0])))
    ensures Tile(0, 0) in ToEntry(0, Stored(NodeTwo, [0])).tiles
  {
    var root := Full(TwoNodeRoot);
    assert TileIds(TwoNodeRoot.tileIndex) == [0];
    assert TileIds(NodeOneRewritten.local.tileIndex) == [0];
    assert forall t :: HasTileAt(root, t) == HasTileAt(NodeOneRewritten, t);
    assert TilesOf(0, [0]) == [Tile(0, 0)];
  }

  /** The rewriting diff leaves node 2 of the tile it holds behind in the root. */
  lemma NodeOneRewrittenNotWhole()
    ensures !CopiesWholeTiles(NodeOneRewritten)
  {
    NodeOneRewrittenValid();
    OwnRecordInView(Full(TwoNodeRoot), 1, Tile(0, 0));
    assert HasTileAt(NodeOneRewritten, Tile(0, 0));
    assert KeyOf(NodeTwo) !in NodeOneRewritten.local.index;
  }

  /** Reading tile (0, 0) through the rewriting diff reads only the diff's store. */
  lemma NodeTwoNotRead()
    ensures ToEntry(0, Stored(NodeTwo, [0])) !in TileQuery(NodeOneRewritten, [Tile(0, 0)])
  {
    var l := NodeOneRewritten.local;
    NodeOneRewrittenValid();
    PartitionSplitsTiles(NodeOneRewritten, [Tile(0, 0)]);
    assert IdsOf(0, [Tile(0, 0)]) == [0];
    assert |OtherPart(NodeOneRewritten, [Tile(0, 0)])| == 0;
    assert TileQuery(NodeOneRewritten, [Tile(0, 0)]) == LocalForTiles(l, [0]);
    LocalForTilesMembers(l, [0]);
  }

  /**
   * Without whole-tile copy-on-write the tile read misses an object: a root storing nodes
   * 1 and 2 in tile (0, 0) and a diff that rewrites node 1 in that tile but does not copy
   * node 2. Node 2 still resolves to the root's record in tile (0, 0), yet reading the
   * tile does not return it.
   */
  lemma TileQueryNeedsWholeTiles()
    ensures ValidLayer(NodeOneRewritten) && RewritesCoverTiles(NodeOneRewritten)
    ensures !CopiesWholeTiles(NodeOneRewritten)
    ensures Resolve(NodeOneRewritten, KeyOf(NodeTwo)) == Some(ToEntry(0, Stored(NodeTwo, [0])))
    ensures Tile(0, 0) in ToEntry(0, Stored(NodeTwo, [0])).tiles
    ensures ToEntry(0, Stored(NodeTwo, [0])) !in TileQuery(NodeOneRewritten, [Tile(0, 0)])
  {
    NodeOneRewrittenValid();
    NodeOneRewrittenNotWhole();
    NodeTwoNotRead();
  }
}

=== FILE: tiles.dfy ===
/**
 * Tile addressing: a tile (x, y) at an even zoom level and its dense local id, which
 * the tile index uses as key.
 */
module Tiles {

  datatype Tile = Tile(x: nat, y: nat)

  function Pow2(n: nat): (r: nat)
    ensures r >= 1
  {
    if n == 0 then 1 else 2 * Pow2(n - 1)
  }

  /** Number of tiles along one side at the given zoom. */
  function Size(zoom: nat): (r: nat)
    ensures r >= 1
  {
    Pow2(zoom)
  }

  /** Zoom levels are multiples of two (the builder rejects others). */
  predicate ValidZoom(zoom: nat) {
    zoom % 2 == 0
  }

  predicate ValidAt(t: Tile, zoom: nat) {
    t.x < Size(zoom) && t.y < Size(zoom)
  }

  predicate ValidId(id: nat, zoom: nat) {
    id < Size(zoom) * Size(zoom)
  }

  /** `Tile.ToLocalId`: row-major numbering of the tiles at one zoom level. */
  function ToLocalId(t: Tile, zoom: nat): nat {
    t.y * Size(zoom) + t.x
  }

  /** `Tile.FromLocalId`. */
  function FromLocalId(zoom: nat, id: nat): Tile {
    var s := Size(zoom);
    DivIsNat(id, s);
    Tile(id % s, id / s)
  }

  lemma DivIsNat(n: nat, s: nat)
    requires s > 0
    ensures n / s >= 0 && n % s >= 0
  {
  }

  lemma MulMonotone(a: nat, b: nat, s: nat)
    requires a <= b
    ensures a * s <= b * s
  {
  }

  lemma DivModUnique(n: nat, s: nat, q: nat, r: nat)
    requires s > 0 && r < s && n == q * s + r
    ensures n / s == q && n % s == r
  {
    var q', r' := n / s, n % s;
    assert n == q' * s + r';
    if q < q' {
      MulMonotone(q + 1, q', s);
    } else if q' < q {
      MulMonotone(q' + 1, q, s);
    }
  }

  /** A valid tile's local id lies below the number of tiles of the grid. */
  lemma LocalIdBound(t: Tile, zoom: nat)
    requires ValidAt(t, zoom)
    ensures ValidId(ToLocalId(t, zoom), zoom)
  {
    var s := Size(zoom);
    MulMonotone(t.y + 1, s, s);
    assert (t.y + 1) * s == t.y * s + s;
    assert ToLocalId(t, zoom) < (t.y + 1) * s;
  }

  /** Converting a valid tile to its local id and back gives the tile again. */
  lemma FromToLocalId(t: Tile, zoom: nat)
    requires ValidAt(t, zoom)
    ensures ValidId(ToLocalId(t, zoom), zoom)
    ensures FromLocalId(zoom, ToLocalId(t, zoom)) == t
  {
    LocalIdBound(t, zoom);
    var s := Size(zoom);
    var id := ToLocalId(t, zoom);
    DivModUnique(id, s, t.y, t.x);
    assert FromLocalId(zoom, id) == Tile(id % s, id / s);
  }

  /** Converting a valid local id to a tile and back gives the id again. */
  lemma ToFromLocalId(id: nat, zoom: nat)
    requires ValidId(id, zoom)
    ensures ValidAt(FromLocalId(zoom, id), zoom)
    ensures ToLocalId(FromLocalId(zoom, id), zoom) == id
  {
    var s := Size(zoom);
    var q, r := id / s, id % s;
    assert id == q * s + r;
    if q >= s {
      MulMonotone(s, q, s);
      assert false;
    }
  }

  /** Two valid tiles with the same local id are the same tile. */
  lemma ToLocalIdInjective(a: Tile, b: Tile, zoom: nat)
    requires ValidAt(a, zoom) && ValidAt(b, zoom)
    requires ToLocalId(a, zoom) == ToLocalId(b, zoom)
    ensures a == b
  {
    FromToLocalId(a, zoom);
    FromToLocalId(b, zoom);
  }
}
